=== FILE: README.md ===
# Job host scheduling and admission, modelled in Dafny

This project models the core of a small media-fetching job host. Clients
submit tasks under API keys. An admission controller (`src/auth.py`) resolves
a key's token and enforces a request-rate ceiling and a rolling 5 GiB /
10-minute memory quota. Every entry point is gated in a fixed order. Keys can
be created and deleted, and an empty key registry gets an `admin` key.

Tasks (`src/yt_handler.py`) move through `waiting → processing →
{completed, error}`. A dispatcher tick submits each waiting task to the handler
for its type (`get`, `get_info`, `get_live`). The same tick deletes terminal
tasks older than the retention window. At startup, tasks left `processing` are
failed as interrupted, and artifact folders that name no task are removed.

The model is functional:
- The key and task registries are maps, and the artifact folders are a set of
  names.
- Time is integer seconds.
- The extraction engine's answers (metadata, best-format picks, download
  outcome, the folder listing after a download) are parameters.
- Each handler is a function from the state it loads to the state it leaves.
  It also returns the statuses it wrote to its task, in order, and the
  download it asked the engine for.

Modules:
- `Wrappers` (wrappers.dfy): `Option`, and Python truthiness of an optional
  string.
- `Clock` (clock.dfy): `HH:MM:SS` parsing and clip bounds.
- `Tasks` (tasks.dfy): the state machine, record updates, recovery and
  sweeps.
- `Auth` (auth.dfy): the admission controller.
- `Formats` (formats.dfy): format sizes and the inflated estimate.
- `Handlers` (handlers.dfy): the three handlers.
- `Dispatcher` (dispatcher.dfy): the tick, job dispatch and startup.

The configuration values `REQUEST_LIMIT` and `TASK_CLEANUP_TIME` (minutes)
from `config.py` are parameters of the operations that read them. The download
directory is not modelled: an artifact folder is the bare task id, and a
finished file is named by the fixed route prefix `/files/{id}/`. `config.py` is
not part of this model.

The code behaves as follows, and the model keeps it:
- The rate check counts every task record the key owns, whatever its status.
  No separate window applies.
- The memory re-check after estimation exists only in `get`, not in
  `get_info` or `get_live`.
- The orphan sweep removes folders only, never task records.
- The sweep also runs only at startup and on the five-minute wall-clock
  trigger.

## Model

| member | source | states |
|---|---|---|
| Auth.GetKeyName | src/auth.py:69-74 | Returns no name exactly when no key holds the token. A returned name is a key whose record holds the token. |
| Auth.GetKeyInfo | src/auth.py:97-100 | The record found by scanning values exists exactly when the token resolves to a name, and it is that name's record. |
| Auth.Prune | src/auth.py:20-25 | Keeps exactly the samples strictly newer than `now − 600 s`, each as many times as it occurs in the input, and drops every other sample. |
| Auth.WindowShrinks | src/auth.py:22-27 | As `now` advances, the windowed total never grows. |
| Auth.WindowAfterReserve | src/auth.py:32-37 | Storing the pruned samples plus `{now, size}` raises the windowed total by exactly `size`. |
| Auth.CheckMemoryLimit | src/auth.py:11-38 | An unknown token, or one naming a key called `""`, is refused and changes nothing. Otherwise the check allows exactly when windowed total + new size ≤ 5·1024³. A refusal or a size ≤ 0 saves nothing. An allowed positive size stores the pruned samples plus exactly one new sample, leaves every other key and the record's token and permissions unchanged, and keeps the windowed total within the quota. |
| Auth.MemoryCheckKeepsInvariants | src/auth.py:28-38 | Whatever the check decides, token uniqueness and "every key within quota at `now`" are preserved. |
| Auth.CheckRateLimit | src/auth.py:40-48 | The task-by-task count allows exactly when the number of tasks owned by the resolved key, of any status, is below the ceiling. |
| Auth.CheckApiKey | src/auth.py:50-67 | Each gate outcome holds exactly when its check is the first to fail, in this order: no token (401), rate (429), unknown token (401), missing permission (403). Otherwise the request is admitted as the key holding the token. |
| Auth.RateBeforeValidity | src/auth.py:55-61 | An unknown token is answered 429 under a zero ceiling and 401 under a ceiling of 1, so the rate check runs before validity. |
| Auth.CreateApiKey | src/auth.py:76-84 | `keys[name]` becomes the new token and permissions with no usage. The registry gains only that name, and every other key is unchanged. |
| Auth.CreateResolves | src/auth.py:76-84 | With a fresh token, creation keeps tokens unique and the token resolves to the new name. A replaced key's old token stops resolving. |
| Auth.DeleteApiKey | src/auth.py:86-92 | Returns true exactly when the name was present. Only that entry is removed. |
| Auth.DeleteRevokes | src/auth.py:86-92 | Deletion keeps tokens unique, the deleted key's token stops resolving, and deleting an absent name changes nothing. |
| Auth.Bootstrap | src/auth.py:102 | An empty registry becomes exactly `{"admin": all nine permissions, no usage}`. A non-empty one is unchanged. |
| Auth.AdminAdmitted | src/auth.py:102 | The bootstrap admin passes the gate for each of its nine permissions while under the rate ceiling. |
| Formats.FormatSize | src/yt_handler.py:17 | A positive exact size wins. A missing or zero exact size falls back to the approximation, and to 0 without one. |
| Formats.FindFormat | src/yt_handler.py:76 | Returns the index of the first format with the id, or none when no format has it. |
| Formats.GetFormatSize | src/yt_handler.py:14-18 | Returns the size of the first format whose id matches, or 0 when none matches. A missing `formats` entry counts as empty. |
| Formats.Inflate | src/yt_handler.py:89-90 | Returns −1 exactly when the sum is 0. Otherwise the result is the floor of 110% of the sum (`10r ≤ 11·total < 10r + 10`) and at least the sum. |
| Formats.SelectedSize | src/yt_handler.py:70-88 | Fails only for a `best…` selector without an engine pick. An empty selector contributes 0, a `best…` selector with a pick contributes the pick's size, and an explicit id contributes its `get_format_size`. |
| Formats.CheckAndGetSize | src/yt_handler.py:52-93 | The estimate is −1 or positive. It is −1 when the engine raised, the metadata has no formats or a `best…` pick is missing. Otherwise it is the inflated sum of the two selectors' sizes. |
| Formats.EstimateOfExplicitIds | src/yt_handler.py:76-90 | With explicit ids, the estimate is the inflated sum of their `get_format_size` values. |
| Formats.EstimateFailsOnlyWhenEmpty | src/yt_handler.py:89-90 | When both selectors resolve, the estimate is −1 exactly when nothing was found, and otherwise at least the raw sum. |
| Clock.ParseNat | src/yt_handler.py:190 | A field is accepted exactly when it is a non-empty run of digits, and its value is its decimal reading. |
| Clock.Split | src/yt_handler.py:189 | Splitting gives at least one piece and no piece contains the separator. Re-joining the pieces gives the input. |
| Clock.SplitOfJoin | src/yt_handler.py:189 | Splitting the join of separator-free pieces gives the pieces back. |
| Clock.TimeToSecondsAccepts | src/yt_handler.py:188-190 | Every accepted string is three `:`-separated digit fields, and its value is `h·3600 + m·60 + s`. |
| Clock.TimeToSecondsOfClock | src/yt_handler.py:188-190 | Three digit fields are always accepted, with value `h·3600 + m·60 + s`. |
| Clock.TimeToSecondsRoundTrip | src/yt_handler.py:188-190 | Formatting `h`, `m`, `s` as a clock string and reading it back gives `h·3600 + m·60 + s`. |
| Clock.TwoFieldsRefused | src/yt_handler.py:189 | A string with only two fields is refused. |
| Clock.DefaultsInSeconds | src/yt_handler.py:185-186 | The defaults `00:00:00` and `10:00:00` read as 0 and 36000 seconds. |
| Clock.ClipBounds | src/yt_handler.py:184-192 | There is no clip exactly when neither bound is given. A missing start means 0 and a missing end 36000, a given bound takes its parsed value, and the clip is malformed exactly when a given bound does not parse. |
| Clock.LiveRange | src/yt_handler.py:237 | A live clip starts at `start` and spans exactly `duration` seconds. |
| Tasks.MarkProcessing | src/yt_handler.py:134-135 | Only the task's status changes, to `processing`. No other task and no other field changes. |
| Tasks.MarkCompleted | src/yt_handler.py:200-204 | Only status, finish time and file of the one task change, to `completed`, `now` and the path. |
| Tasks.HandleTaskError | src/yt_handler.py:256-259 | Only status, error and finish time of the one task change. An absent id leaves the registry as it was. |
| Tasks.UpdatesKeepTerminalTimed | src/yt_handler.py:256-259 | The single-record updates keep every terminal task carrying a finish time. |
| Tasks.CleanupTask | src/yt_handler.py:262-269 | The task's folder and record are removed and nothing else. An absent id leaves the registry unchanged. |
| Tasks.CleanupProcessingTasks | src/yt_handler.py:281-288 | Afterwards no task is `processing`. Each former `processing` task is `error` with the interrupted message and a finish time, and all other tasks are untouched. |
| Tasks.RecoveryIsSound | src/yt_handler.py:281-288 | Recovery is a legal lifecycle step and keeps terminal tasks timed. A second run changes nothing. |
| Tasks.CleanupOrphanedFolders | src/yt_handler.py:271-279 | Removes exactly the folders naming no task and keeps every folder that names a task. A second run removes nothing. |
| Handlers.ExtractInfo | src/yt_handler.py:95-124 | One `processing` write, then one terminal write: `completed` with `/files/{id}/info.json`, or `error` with the engine's message. Only that task changes and its folder is created. An absent task changes nothing. |
| Handlers.Finish | src/yt_handler.py:197-208 | Completes exactly when the download wrote and the folder lists an entry, with the file `/files/{id}/` + first entry. Otherwise the task fails, with the engine's message when the engine raised. |
| Handlers.MediaFormat | src/yt_handler.py:170-175 | An audio job asks for the audio selector with a `/best` fallback. A video job asks for the video selector, `+`, then the audio selector with the fallback. |
| Handlers.Estimate | src/yt_handler.py:157 | The estimate is −1 or positive. An audio job's estimate ignores the video selector, and a video job's is the inflated sum of both selectors' sizes. |
| Handlers.Reserve | src/yt_handler.py:160-208 | A missing owner fails the task. The quota re-check's registry is kept, and a download is requested exactly when the owner exists, the quota allows the estimate and the clip parses. The request carries the job's format, the parsed clip range (none without bounds), and the task's keyframe flag only when clipped. |
| Handlers.Get | src/yt_handler.py:126-208 | For a present task: one `processing` write, then one terminal write, and only that task changes. A non-positive estimate fails with the size error and reserves nothing. A download is requested exactly when the estimate is positive, the owner exists, the quota allows it and the clip parses. It carries the media format and the task's clip. The task then completes, with `/files/{id}/` plus the first entry, exactly when the download saved a non-empty folder. Token uniqueness and the quota are preserved. |
| Handlers.GetIsOneWay | src/yt_handler.py:134-208 | From a waiting task, `get` follows `waiting → processing → terminal` with a single terminal write. |
| Handlers.GetCompletes | src/yt_handler.py:160-204 | When the owner exists, the estimate fits the quota, the clip parses and the download leaves a file, the task completes with that file and the estimate is reserved for the owner. The download asked for has the job's format, the clip range and the keyframe flag as read from the task. |
| Handlers.GetRefusesOverQuota | src/yt_handler.py:167-168 | When the inflated estimate no longer fits the quota, the task fails with the quota message. Nothing is reserved and nothing is downloaded. |
| Handlers.GetUnguarded | src/yt_handler.py:157-158 | Without the return after a failed estimate, the first write is still `processing` and at least two statuses are written. |
| Handlers.GetUnguardedLeavesError | src/yt_handler.py:157-158 | Without the return, a failed estimate is followed by completion. The trace `processing, error, completed` breaks the lifecycle, and the task ends with both an error and a file. |
| Handlers.GetAsWritten | src/yt_handler.py:157-168 | As written, `get` changes no key and removes no task. A task it finds ends with the arity `TypeError` message, or the invalid-key message when its owner key is gone, and no download is requested. |
| Handlers.GetAsWrittenNeverCompletes | src/yt_handler.py:167-168 | As written, every `get` that finds its task ends in `error` and requests no download. |
| Handlers.LiveFormatAsWritten | src/yt_handler.py:223 | As written, only the type string `get_live_video` yields video plus audio. Any other string yields the audio selector alone. |
| Handlers.LiveVideoLosesVideo | src/yt_handler.py:223 | As written, the live format is the audio selector alone for both kinds the dispatcher passes. |
| Handlers.LiveFormat | src/yt_handler.py:223 | Repaired, a live video job asks for `video+audio` and a live audio job for the audio selector. |
| Handlers.GetLive | src/yt_handler.py:210-254 | One `processing` write, then one terminal write. The download asks for the live format over `[start, start+duration)` with keyframe cuts. The task completes exactly when the download saved a non-empty folder, with `/files/{id}/` plus the first entry as its file. An engine failure becomes the task's error. |
| Handlers.HandlersKeepTerminalTimed | src/yt_handler.py:306-308 | Every handler leaves every terminal task with the finish time the dispatcher reads. |
| Dispatcher.JobFor | src/yt_handler.py:295-305 | The job's kind follows the task type. It carries the task's url, formats, proxy and live bounds, and audio jobs pass `bestvideo`. |
| Dispatcher.RunJob | src/yt_handler.py:296-305 | A present task is taken once through `processing` to a terminal state, and an absent one is left alone. An info job downloads nothing and, on success, yields `info.json`. A fetch job fails with the size message on a non-positive estimate. It requests its media format and the task's clip whenever the owner exists, the quota allows the estimate and the clip parses. A live job always asks for its live format over `[start, start + duration)` with keyframe cuts. A fetch or live job that downloads completes exactly when the folder gets an entry, with `/files/{id}/` plus that entry. |
| Dispatcher.SubmittedJobIsOneWay | src/yt_handler.py:294-305 | Whatever the engine answers, a waiting task's job follows the lifecycle and ends terminal. |
| Dispatcher.Tick | src/yt_handler.py:292-309 | A terminal task is removed, with its folder, exactly when `now − completed_time > retention·60`. Other tasks are never removed or changed. Exactly the waiting tasks are submitted, each with the job for its type. |
| Dispatcher.RunJobAsWritten | src/yt_handler.py:296-305 | As submitted, a live job writes nothing. A fetch job runs `get` as written and ends its task in `error` with no download. An info job takes its task through the lifecycle. |
| Dispatcher.LiveTaskStaysWaiting | src/yt_handler.py:302-305 | As submitted with eight arguments, a live job never starts. Its task stays `waiting` and the next tick submits it again. |
| Dispatcher.RunJobLeavesWaiting | src/yt_handler.py:294-305 | With the argument list repaired, every job ends its task in a terminal state. Terminal tasks stay timed, and the next tick does not submit the task again. |
| Dispatcher.RetentionEdges | src/yt_handler.py:306-309 | One minute past the window is removed. Exactly at the window, and one minute short of it, are kept. |
| Dispatcher.TickSettles | src/yt_handler.py:294-309 | A second tick at the same instant deletes nothing more and resubmits the same jobs. |
| Dispatcher.DuplicateRunReopens | src/yt_handler.py:294-305 | A second copy of a job, run after the first one finished its task, writes `processing` over the terminal status, which is not a lifecycle step. |
| Dispatcher.TickQueued | src/yt_handler.py:292-309 | Deletes as the tick does, and submits exactly the waiting tasks not already queued, each with the job for its type. With nothing queued, it is the tick. |
| Dispatcher.QueuedTickSubmitsOnce | src/yt_handler.py:294-305 | A tick that remembers what the previous tick queued submits none of those tasks again, and every task still waiting stays queued. |
| Dispatcher.Startup | src/yt_handler.py:314-315 | After startup no task is `processing` and every remaining folder names a task. Folders of tasks are kept, and terminal tasks stay timed. |
| Dispatcher.InfoScenario | src/yt_handler.py:95-120 | From a fresh install, admin passes the `get_info` gate, the tick submits the info job, and the task completes with `info.json` and no error. |

## Left out

- Auth.GetKeyName: requires distinct tokens. The source returns the first
  match in the registry's insertion order. A map has no order, so the model
  relies on the registry invariant instead. Every operation here preserves
  that invariant, given a fresh token per key.
- Auth.CheckMemoryLimit: the quota check's clock reading is the `now`
  parameter. Timestamps are integer seconds, not ISO strings.
- Auth.CreateApiKey: `secrets.token_urlsafe(32)` is the `token` parameter.
  Freshness is the `Fresh` premise of the lemmas about it.
- `get_all_keys` (src/auth.py:94-95) is a plain registry load and has no
  logic to model.
- The gate's JSON error bodies are left out. The model keeps only the
  outcome and its HTTP status.
- Formats.Inflate: the source multiplies by the float 1.10. The model uses
  the exact `⌊11·total/10⌋`, which agrees for sizes far below 2^50 bytes.
- Formats.FormatSize: a `filesize_approx` present with a null value makes the
  source produce `None` and later raise. The model reads it as absent.
- `get_best_format_size` (src/yt_handler.py:20-50) is a floating-point
  heuristic over engine metadata. Its pick is the `bestVideo`/`bestAudio`
  parameter.
- Clock.ParseNat: Python's `float()` also accepts signs, fractions, exponents
  and surrounding blanks. The model accepts decimal digits only.
- Handlers.Get: the `ValueError` text of a malformed clip bound is the
  placeholder `BadClipMessage`. Engine exception texts are parameters.
- Handlers.Get: all clock readings in one handler run use the single instant
  `now`.
- The `quiet`/`verbose` options, `merge_output_format` and the route
  (`proxy` / `PROXY_URL`) only affect the engine, which is opaque here.
- The progress hook of `get_live` (src/yt_handler.py:225-229, installed at
  line 236) loads the registry, writes the task's `progress` field and saves
  it while a download runs. The task record has no `progress` field here, so
  `GetLive`'s "only that task, only these fields" statements say nothing about
  `progress`. The hook `get` defines (lines 142-146) goes only into the first
  option set (lines 148-155). Line 177 replaces that set, hook and all, before
  the download, so `get` never writes `progress` and its statements hold as
  they are.
  The `format_str` built at src/yt_handler.py:140 goes only into the first
  option set of `get` and is discarded with it.
- Filesystem effects are set operations on folder names: `makedirs` adds a
  name, `rmtree` removes one and its errors are ignored. Non-directory entries
  of the download directory are not modelled.
- JSON persistence is whole-map replacement. Load/save races between
  concurrent workers and the dispatcher, where one save overwrites another,
  are out of scope for this sequential model. The duplicate submission of a
  waiting task needs no race: it is listed under "## Findings".
- The thread pool, the daemon thread, `time.sleep(1)` and the
  "every 5 minutes at second 0" orphan-sweep trigger are concurrency and
  real-time plumbing. The sweep is modelled as its own operation.
- Dispatcher.Tick: requires every terminal task to carry a finish time. Without
  one, the source's dispatcher thread dies on a `KeyError`. Every operation
  here keeps this invariant.
- Task types are a closed enumeration. A record with an unknown `task_type`
  string, which the source's tick skips, cannot be expressed.
- Exceptions that escape a handler (an id missing when `handle_task_error`
  reloads the registry) leave the state unchanged. They are not reported.

## Findings

| source | as written | input that shows it | evidently intended | confidence | as-written member | corrected member |
|---|---|---|---|---|---|---|
| src/yt_handler.py:167 | calls the two-parameter `check_memory_limit` with the task id as a third argument; the `TypeError` is caught at line 207 and fails the task | any `get_video`/`get_audio` task whose owner key exists | re-check the inflated estimate with the two-argument call | high; not executed | Handlers.GetAsWritten, Handlers.GetAsWrittenNeverCompletes | Handlers.Get, Handlers.GetCompletes |
| src/yt_handler.py:158 | records "Error getting size" and carries on (shown with line 167 repaired) | the engine's metadata call raises (estimate −1), owner exists, no clip, download writes a file: the task goes `error` then `completed` and keeps both error and file | return after recording the size error | high; not executed | Handlers.GetUnguarded, Handlers.GetUnguardedLeavesError | Handlers.Get, Handlers.GetIsOneWay |
| src/yt_handler.py:303 | submits `get_live` with eight arguments (the route last), but it takes at most seven; the call raises inside the pool before the handler starts (line 305 likewise) | any `get_live_video`/`get_live_audio` task: it stays `waiting` and is resubmitted on every tick | pass the seven arguments `get_live` declares | high; not executed | Dispatcher.RunJobAsWritten, Dispatcher.LiveTaskStaysWaiting | Dispatcher.RunJob, Dispatcher.RunJobLeavesWaiting |
| src/yt_handler.py:294-305 | submits every `waiting` task on every tick (once a second) until a worker marks it `processing`, and no handler checks the status it loads | the pool's workers are all busy for two ticks while a task waits: two copies of its job are queued, and the second re-opens the task the first finished, downloading and reserving quota again | submit a task once, e.g. remember the ids handed to the pool | medium, it needs a busy pool; not executed | Dispatcher.Tick, Dispatcher.TickSettles, Dispatcher.DuplicateRunReopens | Dispatcher.TickQueued, Dispatcher.QueuedTickSubmitsOnce |
| src/yt_handler.py:223 | compares the type with `"get_live_video"`, but the dispatcher passes `"video"` (line 303); shown with the argument list of line 303 repaired | any `get_live_video` task: the format is the audio selector alone | `video+audio` for a live video job | high; not executed | Handlers.LiveFormatAsWritten, Handlers.LiveVideoLosesVideo | Handlers.LiveFormat, Handlers.GetLive |

=== FILE: auth.dfy ===
/**
  The admission controller: resolving a token to its key, the rolling memory
  quota, the request-rate ceiling, the ordered gate in front of every entry
  point, and creating, deleting and bootstrapping keys.
 */
module Auth {
  import opened Wrappers
  import opened Tasks

  /** The memory quota per key over the rolling window: 5 GiB. */
  const MemoryLimit: nat := 5 * 1024 * 1024 * 1024
  /** Length of the rolling window in seconds: ten minutes. */
  const MemoryWindow: nat := 600

  /** One memory reservation: when it was made and how many bytes. */
  datatype Sample = Sample(timestamp: int, size: nat)

  /** A key record; a record saved without `memory_usage` has an empty one. */
  datatype KeyRecord = KeyRecord(token: string, permissions: seq<string>, usage: seq<Sample>)

  type Keys = map<string, KeyRecord>

  /** The nine permissions of the bootstrap key, in the order it lists them. */
  const AdminPermissions: seq<string> :=
    ["create_key", "delete_key", "get_key", "get_keys", "get_video", "get_audio", "get_live_video", "get_live_audio", "get_info"]

  /**
    No two keys share a token. The source returns the first match in the
    registry's insertion order; under this invariant that is the only match.
   */
  predicate UniqueTokens(keys: Keys) {
    forall a, b :: a in keys && b in keys && keys[a].token == keys[b].token ==> a == b
  }

  /** No key holds `token` yet: what a freshly generated token is. */
  predicate Fresh(keys: Keys, token: string) {
    forall n :: n in keys ==> keys[n].token != token
  }

  /** `get_key_name`: the name of the key holding `token`, if any. */
  function GetKeyName(keys: Keys, token: string): (r: Option<string>)
    requires UniqueTokens(keys)
    ensures r.None? <==> Fresh(keys, token)
    ensures r.Some? ==> r.value in keys && keys[r.value].token == token
  {
    if exists n :: n in keys && keys[n].token == token then
      var n :| n in keys && keys[n].token == token;
      Some(n)
    else None
  }

  /** `get_key_info`: the record holding `token`, if any, found by scanning the records. */
  function GetKeyInfo(keys: Keys, token: string): (r: Option<KeyRecord>)
    requires UniqueTokens(keys)
    ensures r.Some? <==> GetKeyName(keys, token).Some?
    ensures r.Some? ==> r.value == keys[GetKeyName(keys, token).value]
  {
    if exists k :: k in keys.Values && k.token == token then
      var k :| k in keys.Values && k.token == token;
      Some(k)
    else None
  }

  /** A sample still inside the window ending at `now`. */
  predicate Recent(s: Sample, now: int) {
    s.timestamp > now - MemoryWindow
  }

  /** The samples still inside the window, in their original order. */
  function Prune(usage: seq<Sample>, now: int): (kept: seq<Sample>)
    ensures |kept| <= |usage|
    ensures forall s :: s in kept <==> s in usage && Recent(s, now)
    ensures forall s :: multiset(kept)[s] == if Recent(s, now) then multiset(usage)[s] else 0
  {
    if |usage| == 0 then []
    else
      assert usage == [usage[0]] + usage[1..];
      if Recent(usage[0], now) then [usage[0]] + Prune(usage[1..], now)
      else Prune(usage[1..], now)
  }

  function Total(usage: seq<Sample>): nat {
    if |usage| == 0 then 0 else usage[0].size + Total(usage[1..])
  }

  /** Bytes reserved inside the window ending at `now`. */
  function WindowTotal(usage: seq<Sample>, now: int): nat {
    Total(Prune(usage, now))
  }

  lemma {:induction false} TotalAppend(a: seq<Sample>, b: seq<Sample>)
    ensures Total(a + b) == Total(a) + Total(b)
    decreases |a|
  {
    if |a| > 0 {
      assert (a + b)[1..] == a[1..] + b;
      TotalAppend(a[1..], b);
    } else {
      assert a + b == b;
    }
  }

  lemma {:induction false} PruneAppend(a: seq<Sample>, b: seq<Sample>, now: int)
    ensures Prune(a + b, now) == Prune(a, now) + Prune(b, now)
    decreases |a|
  {
    if |a| > 0 {
      assert (a + b)[1..] == a[1..] + b;
      PruneAppend(a[1..], b, now);
    } else {
      assert a + b == b;
    }
  }

  lemma {:induction false} PruneIdempotent(usage: seq<Sample>, now: int)
    ensures Prune(Prune(usage, now), now) == Prune(usage, now)
    decreases |usage|
  {
    if |usage| > 0 {
      PruneIdempotent(usage[1..], now);
      if Recent(usage[0], now) {
        assert ([usage[0]] + Prune(usage[1..], now))[1..] == Prune(usage[1..], now);
      }
    }
  }

  /** Storing the pruned samples plus a new one made now adds exactly that one to the window. */
  lemma WindowAfterReserve(usage: seq<Sample>, now: int, size: nat)
    ensures WindowTotal(Prune(usage, now) + [Sample(now, size)], now) == WindowTotal(usage, now) + size
  {
    PruneAppend(Prune(usage, now), [Sample(now, size)], now);
    PruneIdempotent(usage, now);
    assert Prune([Sample(now, size)], now) == [Sample(now, size)];
    TotalAppend(Prune(usage, now), [Sample(now, size)]);
  }

  /** As time moves on, the window only loses samples, so its total never grows. */
  lemma {:induction false} WindowShrinks(usage: seq<Sample>, now: int, later: int)
    requires now <= later
    ensures WindowTotal(usage, later) <= WindowTotal(usage, now)
    decreases |usage|
  {
    if |usage| > 0 {
      WindowShrinks(usage[1..], now, later);
    }
  }

  /** Every key's windowed reservations are within the quota at `now`. */
  predicate UnderQuota(keys: Keys, now: int) {
    forall n :: n in keys ==> WindowTotal(keys[n].usage, now) <= MemoryLimit
  }

  /** The decision of `check_memory_limit` and the key registry it leaves behind. */
  datatype MemoryCheck = MemoryCheck(allowed: bool, keys: Keys)

  /**
    `check_memory_limit(token, newSize)`: refuse an unknown token (or one whose
    key's name is empty, which Python reads as false); otherwise refuse when the
    reservations inside the window plus `newSize` exceed the quota. A refusal
    saves nothing. An allowed positive `newSize` is saved as one new sample,
    together with the pruning; an allowed `newSize <= 0` saves nothing.
   */
  function CheckMemoryLimit(keys: Keys, token: string, newSize: int, now: int): (r: MemoryCheck)
    requires UniqueTokens(keys)
    ensures GetKeyName(keys, token).None? ==> !r.allowed
    ensures r.allowed <==>
              && GetKeyName(keys, token).Some?
              && GetKeyName(keys, token).value != ""
              && WindowTotal(keys[GetKeyName(keys, token).value].usage, now) + newSize <= MemoryLimit
    ensures !r.allowed || newSize <= 0 ==> r.keys == keys
    ensures r.allowed && newSize > 0 ==>
              var n := GetKeyName(keys, token).value;
              && r.keys.Keys == keys.Keys
              && (forall o :: o in keys && o != n ==> r.keys[o] == keys[o])
              && r.keys[n].token == keys[n].token
              && r.keys[n].permissions == keys[n].permissions
              && r.keys[n].usage == Prune(keys[n].usage, now) + [Sample(now, newSize)]
              && WindowTotal(r.keys[n].usage, now) <= MemoryLimit
  {
    var name := GetKeyName(keys, token);
    if name.None? || name.value == "" then MemoryCheck(false, keys)
    else
      var record := keys[name.value];
      var recent := Prune(record.usage, now);
      if Total(recent) + newSize > MemoryLimit then MemoryCheck(false, keys)
      else if newSize > 0 then
        WindowAfterReserve(record.usage, now, newSize);
        MemoryCheck(true, keys[name.value := record.(usage := recent + [Sample(now, newSize)])])
      else MemoryCheck(true, keys)
  }

  /** The memory check never breaks token uniqueness or the quota, whatever it decides. */
  lemma MemoryCheckKeepsInvariants(keys: Keys, token: string, newSize: int, now: int)
    requires UniqueTokens(keys)
    ensures UniqueTokens(CheckMemoryLimit(keys, token, newSize, now).keys)
    ensures UnderQuota(keys, now) ==> UnderQuota(CheckMemoryLimit(keys, token, newSize, now).keys, now)
  {
    var r := CheckMemoryLimit(keys, token, newSize, now);
    if r.keys != keys {
      var n := GetKeyName(keys, token).value;
      assert forall o :: o in r.keys ==> r.keys[o].token == keys[o].token;
    }
  }

  /** The tasks owned by the key named `owner` (none when the token did not resolve). */
  function Owned(tasks: Registry, owner: Option<string>): set<string> {
    set id | id in tasks && Some(tasks[id].keyName) == owner
  }

  /** The rate rule as a value: fewer live tasks than the ceiling, whatever their status. */
  function RateOk(tasks: Registry, keys: Keys, token: string, requestLimit: nat): bool
    requires UniqueTokens(keys)
  {
    |Owned(tasks, GetKeyName(keys, token))| < requestLimit
  }

  /**
    `check_rate_limit`: count, task by task, those whose owner is the key the
    token resolves to; refuse when the count reaches the ceiling.
   */
  method CheckRateLimit(tasks: Registry, keys: Keys, token: string, requestLimit: nat) returns (ok: bool)
    requires UniqueTokens(keys)
    ensures ok <==> |Owned(tasks, GetKeyName(keys, token))| < requestLimit
  {
    var owner := GetKeyName(keys, token);
    var rate := 0;
    var todo := tasks.Keys;
    ghost var counted: set<string> := {};
    while todo != {}
      invariant todo <= tasks.Keys
      invariant counted == set id | id in tasks.Keys - todo && Some(tasks[id].keyName) == owner
      invariant rate == |counted|
      decreases todo
    {
      var id :| id in todo;
      if Some(tasks[id].keyName) == owner {
        assert id !in counted;
        counted := counted + {id};
        rate := rate + 1;
      }
      todo := todo - {id};
    }
    assert counted == Owned(tasks, owner);
    ok := rate < requestLimit;
  }

  /** Outcome of the gate in front of an entry point. */
  datatype Gate = NoKey | RateLimited | InvalidKey | Forbidden | Admitted(name: string) {
    /** The HTTP status the gate answers with; an admitted request reaches its handler. */
    function Code(): (code: nat)
      ensures code == 200 <==> Admitted?
      ensures code == 401 <==> NoKey? || InvalidKey?
    {
      match this
      case NoKey => 401
      case RateLimited => 429
      case InvalidKey => 401
      case Forbidden => 403
      case Admitted(_) => 200
    }
  }

  /**
    `check_api_key`: the checks run in a fixed order, and the first that fails
    answers: no token, then the rate ceiling (before the token is known to be
    valid), then an unknown token, then the missing permission.
   */
  function CheckApiKey(header: Option<string>, required: string, keys: Keys, tasks: Registry, requestLimit: nat): (g: Gate)
    requires UniqueTokens(keys)
    ensures g.NoKey? <==> !NonEmpty(header)
    ensures g.RateLimited? <==> NonEmpty(header) && !RateOk(tasks, keys, header.value, requestLimit)
    ensures g.InvalidKey? <==>
              && NonEmpty(header) && RateOk(tasks, keys, header.value, requestLimit)
              && GetKeyName(keys, header.value).None?
    ensures g.Forbidden? <==>
              && NonEmpty(header) && RateOk(tasks, keys, header.value, requestLimit)
              && GetKeyName(keys, header.value).Some?
              && required !in keys[GetKeyName(keys, header.value).value].permissions
    ensures g.Admitted? <==>
              && NonEmpty(header) && RateOk(tasks, keys, header.value, requestLimit)
              && GetKeyName(keys, header.value).Some?
              && required in keys[GetKeyName(keys, header.value).value].permissions
    ensures g.Admitted? ==> g.name in keys && keys[g.name].token == header.value
  {
    if !NonEmpty(header) then NoKey
    else if |Owned(tasks, GetKeyName(keys, header.value))| >= requestLimit then RateLimited
    else
      match GetKeyInfo(keys, header.value)
      case None => InvalidKey
      case Some(info) =>
        if required !in info.permissions then Forbidden
        else Admitted(GetKeyName(keys, header.value).value)
  }

  /** The rate check runs before the token is validated: with a zero ceiling even an unknown token is answered 429. */
  lemma RateBeforeValidity(token: string, required: string, keys: Keys, tasks: Registry)
    requires UniqueTokens(keys) && token != "" && Fresh(keys, token)
    ensures CheckApiKey(Some(token), required, keys, tasks, 0) == RateLimited
    ensures CheckApiKey(Some(token), required, keys, tasks, 1) == InvalidKey
  {
    assert Owned(tasks, None) == {};
  }

  /** `create_api_key`: `keys[name]` becomes a new record with the token and permissions and no usage. */
  function CreateApiKey(keys: Keys, name: string, permissions: seq<string>, token: string): (r: Keys)
    ensures r.Keys == keys.Keys + {name}
    ensures r[name].token == token && r[name].permissions == permissions && r[name].usage == []
    ensures forall o :: o in keys && o != name ==> r[o] == keys[o]
  {
    keys[name := KeyRecord(token, permissions, [])]
  }

  /**
    With a fresh token, creation keeps tokens unique, the token resolves to the
    new name, and a replaced key's old token no longer resolves.
   */
  lemma CreateResolves(keys: Keys, name: string, permissions: seq<string>, token: string)
    requires UniqueTokens(keys) && Fresh(keys, token)
    ensures UniqueTokens(CreateApiKey(keys, name, permissions, token))
    ensures GetKeyName(CreateApiKey(keys, name, permissions, token), token) == Some(name)
    ensures name in keys ==> GetKeyName(CreateApiKey(keys, name, permissions, token), keys[name].token).None?
  {
  }

  /** What `delete_api_key` reports and the registry it saves. */
  datatype Deletion = Deletion(found: bool, keys: Keys)

  /** `delete_api_key`: true exactly when the name was present; only that entry goes. */
  function DeleteApiKey(keys: Keys, name: string): (r: Deletion)
    ensures r.found <==> name in keys
    ensures r.keys.Keys == keys.Keys - {name}
    ensures forall o :: o in r.keys ==> r.keys[o] == keys[o]
  {
    if name in keys then Deletion(true, keys - {name}) else Deletion(false, keys)
  }

  /** Deletion keeps tokens unique, and the deleted key's token stops resolving. */
  lemma DeleteRevokes(keys: Keys, name: string)
    requires UniqueTokens(keys)
    ensures UniqueTokens(DeleteApiKey(keys, name).keys)
    ensures name in keys ==> GetKeyName(DeleteApiKey(keys, name).keys, keys[name].token).None?
    ensures name !in keys ==> DeleteApiKey(keys, name).keys == keys
  {
  }

  /** At import time an empty registry receives the key "admin" with all nine permissions. */
  function Bootstrap(keys: Keys, token: string): (r: Keys)
    ensures keys == map[] ==> r.Keys == {"admin"} && r["admin"] == KeyRecord(token, AdminPermissions, [])
    ensures keys != map[] ==> r == keys
  {
    if keys == map[] then CreateApiKey(keys, "admin", AdminPermissions, token) else keys
  }

  /** The bootstrap admin passes the gate for each of its permissions while under the rate ceiling. */
  lemma AdminAdmitted(token: string, tasks: Registry, requestLimit: nat, permission: string)
    requires token != ""
    requires permission in AdminPermissions
    requires |Owned(tasks, Some("admin"))| < requestLimit
    ensures UniqueTokens(Bootstrap(map[], token))
    ensures CheckApiKey(Some(token), permission, Bootstrap(map[], token), tasks, requestLimit) == Admitted("admin")
  {
    var keys := Bootstrap(map[], token);
    assert GetKeyName(keys, token) == Some("admin");
  }
}

=== FILE: clock.dfy ===
/**
  Clip bounds of a download: `HH:MM:SS` strings turned into seconds, the
  defaults used when only one bound is given, and the half-open range of a
  live clip.
 */
module Clock {
  import opened Wrappers

  /** A half-open interval of seconds `[start, end)` handed to the engine's ranged download. */
  datatype Range = Range(start: nat, end: nat)

  /** The bound used when a clip gives an end but no start. */
  const DefaultStart: string := "00:00:00"
  /** The bound used when a clip gives a start but no end. */
  const DefaultEnd: string := "10:00:00"

  predicate IsDigit(c: char) {
    '0' <= c <= '9'
  }

  predicate AllDigits(s: string) {
    forall i :: 0 <= i < |s| ==> IsDigit(s[i])
  }

  function DigitValue(c: char): nat
    requires IsDigit(c)
  {
    c as int - '0' as int
  }

  function DigitChar(d: nat): (c: char)
    requires d < 10
    ensures IsDigit(c) && DigitValue(c) == d
  {
    ('0' as int + d) as char
  }

  /** Decimal value of a digit string, most significant digit first. */
  function DigitsValue(s: string): nat
    requires AllDigits(s)
    decreases |s|
  {
    if |s| == 0 then 0 else DigitsValue(s[..|s| - 1]) * 10 + DigitValue(s[|s| - 1])
  }

  /** A field of a clock string read as a number: a non-empty run of decimal digits. */
  function ParseNat(s: string): (r: Option<nat>)
    ensures r.Some? <==> |s| > 0 && AllDigits(s)
    ensures r.Some? ==> r.value == DigitsValue(s)
  {
    if |s| > 0 && AllDigits(s) then Some(DigitsValue(s)) else None
  }

  /** Shortest decimal spelling of `n`. */
  function Digits(n: nat): (s: string)
    ensures |s| > 0 && AllDigits(s)
    ensures ':' !in s
    decreases n
  {
    if n < 10 then [DigitChar(n)] else Digits(n / 10) + [DigitChar(n % 10)]
  }

  lemma {:induction false} DigitsValueOfDigits(n: nat)
    ensures DigitsValue(Digits(n)) == n
    decreases n
  {
    if n >= 10 {
      var s := Digits(n);
      assert s[..|s| - 1] == Digits(n / 10);
      DigitsValueOfDigits(n / 10);
    }
  }

  /** Reading back the decimal spelling of a number gives the number. */
  lemma ParseNatOfDigits(n: nat)
    ensures ParseNat(Digits(n)) == Some(n)
  {
    DigitsValueOfDigits(n);
  }

  /** Position of the first `c` in `s`. */
  function IndexOf(s: string, c: char): (i: nat)
    requires c in s
    ensures i < |s| && s[i] == c && c !in s[..i]
  {
    if s[0] == c then 0
    else
      var j := IndexOf(s[1..], c);
      assert s[1..][..j] == s[1..j + 1];
      1 + j
  }

  /** The parts re-joined with `sep` between them. */
  function Join(parts: seq<string>, sep: char): string
    requires |parts| >= 1
  {
    if |parts| == 1 then parts[0] else parts[0] + [sep] + Join(parts[1..], sep)
  }

  /** `str.split(sep)`: the maximal pieces of `s` between occurrences of `sep`. */
  function Split(s: string, sep: char): (parts: seq<string>)
    ensures |parts| >= 1
    ensures forall i :: 0 <= i < |parts| ==> sep !in parts[i]
    ensures Join(parts, sep) == s
    decreases |s|
  {
    if sep !in s then [s]
    else
      var i := IndexOf(s, sep);
      var rest := Split(s[i + 1..], sep);
      assert ([s[..i]] + rest)[1..] == rest;
      assert s == s[..i] + [sep] + s[i + 1..];
      [s[..i]] + rest
  }

  /** A sep-free head followed by `sep` splits off as the first piece. */
  lemma SplitCons(head: string, sep: char, rest: string)
    requires sep !in head
    ensures Split(head + [sep] + rest, sep) == [head] + Split(rest, sep)
  {
    var s := head + [sep] + rest;
    assert s[|head|] == sep;
    var i := IndexOf(s, sep);
    assert s[..|head|] == head;
    assert i == |head| by {
      assert i >= |head| by {
        assert forall k :: 0 <= k < |head| ==> s[k] == head[k];
      }
      assert i <= |head| by {
        assert forall k :: 0 <= k < i ==> s[..i][k] == s[k];
      }
    }
    assert s[i + 1..] == rest;
  }

  /** Splitting a string built from sep-free pieces gives the pieces back. */
  lemma {:induction false} SplitOfJoin(parts: seq<string>, sep: char)
    requires |parts| >= 1
    requires forall i :: 0 <= i < |parts| ==> sep !in parts[i]
    ensures Split(Join(parts, sep), sep) == parts
    decreases |parts|
  {
    if |parts| > 1 {
      SplitCons(parts[0], sep, Join(parts[1..], sep));
      SplitOfJoin(parts[1..], sep);
      assert parts == [parts[0]] + parts[1..];
    } else {
      assert Join(parts, sep) == parts[0];
    }
  }

  /**
    `time_to_seconds`: three `:`-separated fields `h`, `m`, `s` give
    `h * 3600 + m * 60 + s`. Any other shape is refused (the source raises
    `ValueError` there).
   */
  function TimeToSeconds(t: string): (r: Option<nat>)
  {
    var parts := Split(t, ':');
    if |parts| != 3 then None
    else
      match (ParseNat(parts[0]), ParseNat(parts[1]), ParseNat(parts[2]))
      case (Some(h), Some(m), Some(s)) => Some(Seconds(h, m, s))
      case _ => None
  }

  /** Seconds in `h` hours, `m` minutes and `s` seconds. */
  function Seconds(h: nat, m: nat, s: nat): nat {
    h * 3600 + m * 60 + s
  }

  /** A clock string with the given fields. */
  function ClockString(h: string, m: string, s: string): string {
    h + [':'] + m + [':'] + s
  }

  /** Every accepted string is a clock string of three digit fields, and its value is read from them. */
  lemma TimeToSecondsAccepts(t: string)
    requires TimeToSeconds(t).Some?
    ensures var p := Split(t, ':');
            && |p| == 3
            && t == ClockString(p[0], p[1], p[2])
            && |p[0]| > 0 && |p[1]| > 0 && |p[2]| > 0
            && AllDigits(p[0]) && AllDigits(p[1]) && AllDigits(p[2])
            && TimeToSeconds(t).value == Seconds(DigitsValue(p[0]), DigitsValue(p[1]), DigitsValue(p[2]))
  {
    var p := Split(t, ':');
    assert p == [p[0]] + [p[1]] + [p[2]];
    assert p[1..] == [p[1], p[2]];
    assert p[1..][1..] == [p[2]];
  }

  /** Conversely, three digit fields are always accepted and give `h * 3600 + m * 60 + s`. */
  lemma {:induction false} TimeToSecondsOfClock(h: string, m: string, s: string)
    requires |h| > 0 && |m| > 0 && |s| > 0
    requires AllDigits(h) && AllDigits(m) && AllDigits(s)
    ensures TimeToSeconds(ClockString(h, m, s)) == Some(Seconds(DigitsValue(h), DigitsValue(m), DigitsValue(s)))
  {
    var parts := [h, m, s];
    forall i | 0 <= i < 3
      ensures ':' !in parts[i]
    {
      assert AllDigits(parts[i]);
    }
    assert Join(parts, ':') == ClockString(h, m, s) by {
      assert parts[1..] == [m, s];
      assert [m, s][1..] == [s];
      assert Join([s], ':') == s;
      assert Join([m, s], ':') == m + [':'] + s;
      assert Join(parts, ':') == h + [':'] + (m + [':'] + s);
    }
    SplitOfJoin(parts, ':');
    assert Split(ClockString(h, m, s), ':') == parts;
    assert ParseNat(h) == Some(DigitsValue(h));
    assert ParseNat(m) == Some(DigitsValue(m));
    assert ParseNat(s) == Some(DigitsValue(s));
  }

  /** Formatting numbers as a clock string and reading it back gives `h * 3600 + m * 60 + s`. */
  lemma TimeToSecondsRoundTrip(h: nat, m: nat, s: nat)
    ensures TimeToSeconds(ClockString(Digits(h), Digits(m), Digits(s))) == Some(Seconds(h, m, s))
  {
    DigitsValueOfDigits(h);
    DigitsValueOfDigits(m);
    DigitsValueOfDigits(s);
    TimeToSecondsOfClock(Digits(h), Digits(m), Digits(s));
  }

  /** A string with a single `:` has two fields, too few for `HH:MM:SS`. */
  lemma TwoFieldsRefused(a: string, b: string)
    requires ':' !in a && ':' !in b
    ensures TimeToSeconds(a + [':'] + b) == None
  {
    SplitOfJoin([a, b], ':');
    assert [a, b][1..] == [b];
  }

  /** The two default bounds read as 0 and 36000 seconds. */
  lemma DefaultsInSeconds()
    ensures TimeToSeconds(DefaultStart) == Some(0)
    ensures TimeToSeconds(DefaultEnd) == Some(36000)
  {
    var zero, ten := "00", "10";
    assert AllDigits(zero) && AllDigits(ten);
    assert DigitsValue(zero) == 0 by { assert zero[..1] == "0"; }
    assert DigitsValue(ten) == 10 by { assert ten[..1] == "1"; }
    assert DefaultStart == ClockString(zero, zero, zero);
    assert DefaultEnd == ClockString(ten, zero, zero);
    TimeToSecondsOfClock(zero, zero, zero);
    TimeToSecondsOfClock(ten, zero, zero);
  }

  /** Outcome of reading a task's optional clip bounds. */
  datatype Clip = Unclipped | Clipped(range: Range) | Malformed

  /**
    The clip of a linear download: none when neither bound is given;
    otherwise a missing start means 00:00:00 and a missing end 10:00:00, and
    a bound that does not read as `HH:MM:SS` makes the clip malformed.
   */
  function ClipBounds(start: Option<string>, end: Option<string>): (c: Clip)
    ensures c.Unclipped? <==> !NonEmpty(start) && !NonEmpty(end)
    ensures c.Clipped? && NonEmpty(start) ==> TimeToSeconds(start.value) == Some(c.range.start)
    ensures c.Clipped? && NonEmpty(end) ==> TimeToSeconds(end.value) == Some(c.range.end)
    ensures c.Clipped? && !NonEmpty(start) ==> c.range.start == 0
    ensures c.Clipped? && !NonEmpty(end) ==> c.range.end == 36000
    ensures c.Malformed? <==>
              || (NonEmpty(start) && TimeToSeconds(start.value).None?)
              || (NonEmpty(end) && TimeToSeconds(end.value).None?)
  {
    DefaultsInSeconds();
    if !NonEmpty(start) && !NonEmpty(end) then Unclipped
    else
      var s := if NonEmpty(start) then start.value else DefaultStart;
      var e := if NonEmpty(end) then end.value else DefaultEnd;
      match (TimeToSeconds(s), TimeToSeconds(e))
      case (Some(a), Some(b)) => Clipped(Range(a, b))
      case _ => Malformed
  }

  /** The range of a live clip: `duration` seconds starting at `start`. */
  function LiveRange(start: nat, duration: nat): (r: Range)
    ensures r.start == start && r.end >= r.start && r.end - r.start == duration
  {
    Range(start, start + duration)
  }
}

=== FILE: dispatcher.dfy ===
/**
  The dispatcher: one tick of `process_tasks` (submit every waiting task to
  the handler for its type, delete terminal tasks past the retention window)
  and the startup sequence (crash recovery, then the orphan sweep). Submitted
  jobs are returned rather than run; `RunJob` says what each one does when a
  worker takes it.
 */
module Dispatcher {
  import opened Wrappers
  import opened Clock
  import opened Tasks
  import opened Auth
  import opened Handlers

  /** A handler call submitted to the worker pool, with the arguments the tick passes. */
  datatype Job =
    | FetchJob(id: string, url: string, kind: Kind, video: string, audio: string, proxy: Option<string>)
    | InfoJob(id: string, url: string)
    | LiveJob(id: string, url: string, kind: Kind, start: nat, duration: nat, video: string, audio: string, proxy: Option<string>)

  /** The job the tick submits for a waiting task, chosen by its type; audio jobs pass "bestvideo" as the video selector. */
  function JobFor(id: string, t: Task): (j: Job)
    ensures j.id == id
    ensures j.InfoJob? <==> t.taskType == GetInfo
    ensures j.FetchJob? <==> t.taskType == GetVideo || t.taskType == GetAudio
    ensures j.LiveJob? <==> t.taskType == GetLiveVideo || t.taskType == GetLiveAudio
    ensures j.FetchJob? || j.LiveJob? ==>
              && j.url == t.url && j.audio == t.audioFormat && j.proxy == t.proxy
              && (j.kind == Video <==> t.taskType == GetVideo || t.taskType == GetLiveVideo)
              && j.video == (if j.kind == Video then t.videoFormat else "bestvideo")
    ensures j.LiveJob? ==> j.start == t.start && j.duration == t.duration
  {
    match t.taskType
    case GetVideo => FetchJob(id, t.url, Video, t.videoFormat, t.audioFormat, t.proxy)
    case GetAudio => FetchJob(id, t.url, Audio, "bestvideo", t.audioFormat, t.proxy)
    case GetInfo => InfoJob(id, t.url)
    case GetLiveVideo => LiveJob(id, t.url, Video, t.start, t.duration, t.videoFormat, t.audioFormat, t.proxy)
    case GetLiveAudio => LiveJob(id, t.url, Audio, t.start, t.duration, "bestvideo", t.audioFormat, t.proxy)
  }

  /**
    What a worker does with a job: the handler for its kind. `get` reloads the
    route from the task record, so a fetch job's `proxy` is not used; routes
    only reach the engine, which is a parameter here.
   */
  function RunJob(w: World, job: Job, now: int, engine: Engine, extract: Attempt): (r: Run)
    requires UniqueTokens(w.keys)
    ensures job.id !in w.tasks ==> r == Run(w, [], None)
    ensures job.id in w.tasks ==> Finished(w.tasks, r.world.tasks, job.id, r.trace, now)
    ensures job.id in w.tasks ==> r.world.folders == w.folders + {job.id}
    ensures UniqueTokens(r.world.keys)
    ensures job.InfoJob? ==> r.request.None?
    ensures job.InfoJob? && job.id in w.tasks && extract == Done ==> r.world.tasks[job.id].file == Some(FilesPrefix(job.id) + "info.json")
    ensures job.FetchJob? && job.id in w.tasks && Estimate(engine, job.kind, job.video, job.audio) <= 0 ==>
              r.world.tasks[job.id].error == Some(SizeErrorMessage) && r.request.None?
    ensures job.FetchJob? && job.id in w.tasks && r.request.Some? ==>
              var clip := ClipBounds(w.tasks[job.id].startTime, w.tasks[job.id].endTime);
              && r.request.value.format == MediaFormat(job.kind, job.video, job.audio)
              && r.request.value.range == (if clip.Clipped? then Some(clip.range) else None)
              && r.request.value.forceKeyframes == (clip.Clipped? && w.tasks[job.id].forceKeyframes)
    ensures job.LiveJob? && job.id in w.tasks ==>
              && r.request.Some?
              && r.request.value.format == LiveFormat(job.kind, job.video, job.audio)
              && r.request.value.range == Some(LiveRange(job.start, job.duration))
              && r.request.value.forceKeyframes
    ensures job.LiveJob? && job.id in w.tasks ==>
              && (r.trace[1] == Completed <==> engine.download.Saved? && |engine.download.listing| > 0)
              && (r.trace[1] == Completed ==> r.world.tasks[job.id].file == Some(FilesPrefix(job.id) + engine.download.listing[0]))
    ensures job.FetchJob? && job.id in w.tasks ==>
              var size := Estimate(engine, job.kind, job.video, job.audio);
              var owner := w.tasks[job.id].keyName;
              && (size > 0 && owner in w.keys && CheckMemoryLimit(w.keys, w.keys[owner].token, size, now).allowed
                  && !ClipBounds(w.tasks[job.id].startTime, w.tasks[job.id].endTime).Malformed?
                  ==> r.request.Some?)
              && (r.request.Some? ==>
                    (r.trace[1] == Completed <==> engine.download.Saved? && |engine.download.listing| > 0))
              && (r.request.Some? && r.trace[1] == Completed ==>
                    r.world.tasks[job.id].file == Some(FilesPrefix(job.id) + engine.download.listing[0]))
  {
    match job
    case FetchJob(id, _, kind, video, audio, _) => Get(w, id, kind, video, audio, now, engine)
    case InfoJob(id, _) => ExtractInfo(w, id, now, extract)
    case LiveJob(id, _, kind, start, duration, video, audio, _) => GetLive(w, id, kind, start, duration, video, audio, now, engine.download)
  }

  /** Whatever the engine answers, the job submitted for a waiting task takes it once through the lifecycle. */
  lemma SubmittedJobIsOneWay(w: World, id: string, now: int, engine: Engine, extract: Attempt)
    requires UniqueTokens(w.keys) && id in w.tasks && w.tasks[id].status == Waiting
    ensures OneWay(Waiting, RunJob(w, JobFor(id, w.tasks[id]), now, engine, extract).trace)
    ensures RunJob(w, JobFor(id, w.tasks[id]), now, engine, extract).world.tasks[id].status.Terminal()
  {
    var r := RunJob(w, JobFor(id, w.tasks[id]), now, engine, extract);
    FinishedIsOneWay(w.tasks, r.world.tasks, id, r.trace, now);
  }

  /**
    A worker call as submitted: `get_live` takes at most seven arguments but the
    tick passes eight (the route last), so the call raises before the handler
    starts; the pool keeps the exception and nothing is written. A fetch job
    runs `get` as written, and an info job runs `get_info`.
   */
  function RunJobAsWritten(w: World, job: Job, now: int, engine: Engine, extract: Attempt): (r: Run)
    ensures job.LiveJob? ==> r == Run(w, [], None)
    ensures job.id !in w.tasks ==> r == Run(w, [], None)
    ensures job.FetchJob? && job.id in w.tasks ==>
              && job.id in r.world.tasks && r.world.tasks[job.id].status == Error && Completed !in r.trace
              && r.request.None?
    ensures job.InfoJob? && job.id in w.tasks ==> Finished(w.tasks, r.world.tasks, job.id, r.trace, now)
  {
    match job
    case FetchJob(id, _, kind, video, audio, _) =>
      var r := GetAsWritten(w, id, kind, video, audio, now, engine);
      if id in w.tasks then
        GetAsWrittenNeverCompletes(w, id, kind, video, audio, now, engine);
        assert id in r.world.tasks.Keys;
        r
      else r
    case InfoJob(id, _) => ExtractInfo(w, id, now, extract)
    case LiveJob(_, _, _, _, _, _, _, _) => Run(w, [], None)
  }

  /** As submitted, a live task is never started: it stays waiting and the next tick submits it again. */
  lemma LiveTaskStaysWaiting(w: World, id: string, now: int, retention: nat, engine: Engine, extract: Attempt)
    requires UniqueTokens(w.keys) && TerminalTimed(w.tasks)
    requires id in w.tasks && w.tasks[id].status == Waiting
    requires w.tasks[id].taskType == GetLiveVideo || w.tasks[id].taskType == GetLiveAudio
    ensures var r := RunJobAsWritten(w, JobFor(id, w.tasks[id]), now, engine, extract);
            && r.world == w && r.trace == []
            && r.world.tasks[id].status == Waiting
            && JobFor(id, w.tasks[id]) in Tick(r.world.tasks, r.world.folders, now, retention).submitted
  {
    var tick := Tick(w.tasks, w.folders, now, retention);
    assert JobFor(id, w.tasks[id]) in tick.submitted;
  }

  /** With the argument list repaired, every job takes its waiting task out of `waiting`, so the next tick does not submit it again. */
  lemma RunJobLeavesWaiting(w: World, id: string, now: int, retention: nat, engine: Engine, extract: Attempt)
    requires UniqueTokens(w.keys) && TerminalTimed(w.tasks)
    requires id in w.tasks && w.tasks[id].status == Waiting
    ensures var r := RunJob(w, JobFor(id, w.tasks[id]), now, engine, extract);
            && r.world.tasks[id].status.Terminal()
            && TerminalTimed(r.world.tasks)
            && forall j :: j in Tick(r.world.tasks, r.world.folders, now, retention).submitted ==> j.id != id
  {
    var r := RunJob(w, JobFor(id, w.tasks[id]), now, engine, extract);
    FinishedKeepsTerminalTimed(w.tasks, r.world.tasks, id, r.trace, now);
  }

  /** A terminal task older than the retention window (in minutes), strictly. */
  predicate Expired(t: Task, now: int, retention: nat)
    requires t.status.Terminal() ==> t.completedTime.Some?
  {
    t.status.Terminal() && now - t.completedTime.value > retention * 60
  }

  /** What one tick leaves: the registry, the artifact folders, and the jobs handed to the pool. */
  datatype TickResult = TickResult(tasks: Registry, folders: set<string>, submitted: set<Job>)

  /**
    One pass of `process_tasks` over the registry as loaded at `now`: each
    waiting task is submitted to the handler for its type, and `cleanup_task`
    runs on each terminal task finished more than `retention` minutes ago.
   */
  function Tick(tasks: Registry, folders: set<string>, now: int, retention: nat): (r: TickResult)
    requires TerminalTimed(tasks)
    ensures r.tasks.Keys <= tasks.Keys
    ensures forall id :: id in r.tasks ==> r.tasks[id] == tasks[id]
    ensures forall id :: id in tasks && !tasks[id].status.Terminal() ==> id in r.tasks
    ensures forall id :: id in tasks && tasks[id].status.Terminal() ==>
              (id !in r.tasks <==> now - tasks[id].completedTime.value > retention * 60)
    ensures r.folders == folders - (tasks.Keys - r.tasks.Keys)
    ensures forall id :: id in tasks && tasks[id].status == Waiting ==> JobFor(id, tasks[id]) in r.submitted
    ensures forall j :: j in r.submitted ==> j.id in tasks && tasks[j.id].status == Waiting && j == JobFor(j.id, tasks[j.id])
  {
    var expired := set id | id in tasks && Expired(tasks[id], now, retention);
    var submitted := set id | id in tasks && tasks[id].status == Waiting :: JobFor(id, tasks[id]);
    TickResult(tasks - expired, folders - expired, submitted)
  }

  /** The retention rule at its edges: a minute past the window goes, a minute short and exactly at it stay. */
  lemma RetentionEdges(tasks: Registry, folders: set<string>, now: int, retention: nat, id: string)
    requires TerminalTimed(tasks) && id in tasks && tasks[id].status.Terminal()
    ensures tasks[id].completedTime == Some(now - (retention * 60 + 60)) ==> id !in Tick(tasks, folders, now, retention).tasks
    ensures tasks[id].completedTime == Some(now - retention * 60) ==> id in Tick(tasks, folders, now, retention).tasks
    ensures retention >= 1 && tasks[id].completedTime == Some(now - (retention * 60 - 60)) ==> id in Tick(tasks, folders, now, retention).tasks
  {
  }

  /**
    A second tick at the same instant deletes nothing more, keeps every folder,
    and submits the same jobs again: a task still waiting is resubmitted on
    every tick until its handler marks it processing.
   */
  lemma TickSettles(tasks: Registry, folders: set<string>, now: int, retention: nat)
    requires TerminalTimed(tasks)
    ensures TerminalTimed(Tick(tasks, folders, now, retention).tasks)
    ensures var once := Tick(tasks, folders, now, retention);
            var twice := Tick(once.tasks, once.folders, now, retention);
            && twice.tasks == once.tasks
            && twice.folders == once.folders
            && twice.submitted == once.submitted
  {
    var once := Tick(tasks, folders, now, retention);
    var twice := Tick(once.tasks, once.folders, now, retention);
    assert twice.tasks.Keys == once.tasks.Keys;
    forall j | j in once.submitted
      ensures j in twice.submitted
    {
      assert j.id in once.tasks;
    }
  }

  /**
    A task is submitted again on every tick until a worker marks it processing,
    so when the pool is busy two copies of its job can wait in the queue. The
    handlers do not check the status they load: the second copy re-opens the
    task the first one finished, writing `processing` over a terminal status.
   */
  lemma DuplicateRunReopens(w: World, id: string, now: int, later: int, engine: Engine, extract: Attempt)
    requires UniqueTokens(w.keys) && id in w.tasks && w.tasks[id].status == Waiting
    ensures var job := JobFor(id, w.tasks[id]);
            var first := RunJob(w, job, now, engine, extract);
            var second := RunJob(first.world, job, later, engine, extract);
            && id in first.world.tasks && first.world.tasks[id].status.Terminal()
            && |second.trace| > 0 && second.trace[0] == Processing
            && !OneWay(first.world.tasks[id].status, second.trace)
  {
    var job := JobFor(id, w.tasks[id]);
    var first := RunJob(w, job, now, engine, extract);
    SubmittedJobIsOneWay(w, id, now, engine, extract);
    assert id in first.world.tasks;
    var second := RunJob(first.world, job, later, engine, extract);
    assert second.trace[0] == Processing;
    assert !Step(first.world.tasks[id].status, Processing);
  }

  /** The ids of a set of jobs. */
  function JobIds(jobs: set<Job>): set<string> {
    set j | j in jobs :: j.id
  }

  /**
    The tick with the duplicate submission repaired: the ids already handed to
    the pool and not yet started (`queued`) are not submitted again. Deletion
    is as in `Tick`.
   */
  function TickQueued(tasks: Registry, folders: set<string>, now: int, retention: nat, queued: set<string>): (r: TickResult)
    requires TerminalTimed(tasks)
    ensures r.tasks == Tick(tasks, folders, now, retention).tasks
    ensures r.folders == Tick(tasks, folders, now, retention).folders
    ensures queued == {} ==> r == Tick(tasks, folders, now, retention)
    ensures forall id :: id in tasks && tasks[id].status == Waiting && id !in queued ==> JobFor(id, tasks[id]) in r.submitted
    ensures forall j :: j in r.submitted ==>
              && j.id !in queued
              && j.id in tasks && tasks[j.id].status == Waiting && j == JobFor(j.id, tasks[j.id])
  {
    var t := Tick(tasks, folders, now, retention);
    t.(submitted := set j | j in t.submitted && j.id !in queued)
  }

  /**
    Repaired, a job is queued at most once: a tick that remembers what the
    previous tick queued submits none of those tasks again, however much later
    it runs, while a task that was queued earlier and is still waiting stays
    queued rather than being dropped.
   */
  lemma {:induction false} QueuedTickSubmitsOnce(tasks: Registry, folders: set<string>, now: int, later: int, retention: nat, queued: set<string>)
    requires TerminalTimed(tasks)
    ensures var first := TickQueued(tasks, folders, now, retention, queued);
            && TerminalTimed(first.tasks)
            && var second := TickQueued(first.tasks, first.folders, later, retention, queued + JobIds(first.submitted));
               && (forall j :: j in second.submitted ==> j.id !in JobIds(first.submitted) && j.id !in queued)
               && (forall id :: id in first.tasks && first.tasks[id].status == Waiting ==>
                     id in queued + JobIds(first.submitted))
  {
    var first := TickQueued(tasks, folders, now, retention, queued);
    assert TerminalTimed(first.tasks);
    var q2 := queued + JobIds(first.submitted);
    var second := TickQueued(first.tasks, first.folders, later, retention, q2);
    forall id | id in first.tasks && first.tasks[id].status == Waiting
      ensures id in queued + JobIds(first.submitted)
    {
      if id !in queued {
        assert id in tasks && tasks[id] == first.tasks[id];
        var j := JobFor(id, tasks[id]);
        assert j in first.submitted && j.id == id;
      }
    }
  }

  /**
    Startup: every task left `processing` is failed as interrupted, then the
    folders naming no task are removed.
   */
  method Startup(tasks: Registry, folders: set<string>, now: int) returns (recovered: Registry, kept: set<string>)
    ensures recovered == CleanupProcessingTasks(tasks, now)
    ensures recovered.Keys == tasks.Keys
    ensures forall id :: id in recovered ==> recovered[id].status != Processing
    ensures kept <= folders && kept <= recovered.Keys
    ensures forall f :: f in folders && f in tasks ==> f in kept
    ensures TerminalTimed(tasks) ==> TerminalTimed(recovered)
  {
    recovered := CleanupProcessingTasks(tasks, now);
    RecoveryIsSound(tasks, now, now);
    var removed;
    kept, removed := CleanupOrphanedFolders(folders, recovered);
  }

  /**
    A fresh install: the bootstrap key "admin" passes the gate for `get_info`,
    the next tick submits the info job of its waiting task, and a successful
    extraction completes the task with its metadata file and no error.
   */
  lemma InfoScenario(token: string, id: string, t: Task, now: int, later: int, retention: nat, requestLimit: nat, engine: Engine)
    requires token != "" && requestLimit >= 1
    requires t.status == Waiting && t.taskType == GetInfo && t.file.None? && t.error.None?
    ensures CheckApiKey(Some(token), "get_info", Bootstrap(map[], token), map[], requestLimit) == Admitted("admin")
    ensures Tick(map[id := t], {}, now, retention).submitted == {InfoJob(id, t.url)}
    ensures var r := RunJob(World(map[id := t], Bootstrap(map[], token), {}), InfoJob(id, t.url), later, engine, Done);
            && r.trace == [Processing, Completed]
            && r.world.tasks[id].file == Some(FilesPrefix(id) + "info.json")
            && r.world.tasks[id].error.None?
  {
    AdminAdmitted(token, map[], requestLimit, "get_info");
    var tasks := map[id := t];
    assert TerminalTimed(tasks);
    var tick := Tick(tasks, {}, now, retention);
    assert id in tasks && tasks[id] == t && tasks[id].status == Waiting;
    assert JobFor(id, tasks[id]) in tick.submitted;
    assert JobFor(id, t) == InfoJob(id, t.url);
  }
}

=== FILE: formats.dfy ===
/**
  Size arithmetic over the engine's format metadata: a format's byte size,
  lookup of a format by id, and the 10%-inflated estimate the media handler
  re-checks against the memory quota.
 */
module Formats {
  import opened Wrappers

  /** One entry of the engine's `formats` list; absent and null fields are both `None`. */
  datatype Format = Format(formatId: Option<string>, filesize: Option<nat>, filesizeApprox: Option<nat>)

  /** The metadata document; `formats` is `None` when the document has no such entry. */
  datatype Info = Info(formats: Option<seq<Format>>)

  /** `f.get('filesize') or f.get('filesize_approx', 0)`: a missing or zero exact size falls back to the estimate. */
  function FormatSize(f: Format): (size: nat)
    ensures f.filesize.Some? && f.filesize.value > 0 ==> size == f.filesize.value
    ensures (f.filesize.None? || f.filesize.value == 0) && f.filesizeApprox.Some? ==> size == f.filesizeApprox.value
    ensures (f.filesize.None? || f.filesize.value == 0) && f.filesizeApprox.None? ==> size == 0
  {
    if f.filesize.Some? && f.filesize.value != 0 then f.filesize.value
    else f.filesizeApprox.GetOr(0)
  }

  /** Index of the first format whose id is `id`. */
  function FindFormat(formats: seq<Format>, id: string): (r: Option<nat>)
    ensures r.Some? ==> r.value < |formats| && formats[r.value].formatId == Some(id)
    ensures r.Some? ==> forall j :: 0 <= j < r.value ==> formats[j].formatId != Some(id)
    ensures r.None? ==> forall j :: 0 <= j < |formats| ==> formats[j].formatId != Some(id)
    decreases |formats|
  {
    if |formats| == 0 then None
    else if formats[0].formatId == Some(id) then Some(0)
    else
      match FindFormat(formats[1..], id)
      case None => None
      case Some(i) => Some(i + 1)
  }

  /** `get_format_size`: the size of the first format with this id, 0 when none has it. */
  function GetFormatSize(info: Info, id: string): (size: nat)
    ensures var fs := info.formats.GetOr([]);
            (forall j :: 0 <= j < |fs| ==> fs[j].formatId != Some(id)) ==> size == 0
    ensures var fs := info.formats.GetOr([]);
            forall i :: 0 <= i < |fs| && fs[i].formatId == Some(id) && (forall j :: 0 <= j < i ==> fs[j].formatId != Some(id))
              ==> size == FormatSize(fs[i])
  {
    var fs := info.formats.GetOr([]);
    match FindFormat(fs, id)
    case None => 0
    case Some(i) => FormatSize(fs[i])
  }

  /**
    `int(total * 1.10)`, or -1 when that is not positive. The source multiplies
    in floating point; for sizes below 2^50 bytes the result is the floor of
    the exact product written here.
   */
  function Inflate(total: nat): (r: int)
    ensures r == -1 <==> total == 0
    ensures r != -1 ==> r > 0 && 10 * r <= 11 * total < 10 * r + 10
    ensures r != -1 ==> r >= total
  {
    var t := total * 11 / 10;
    if t > 0 then t else -1
  }

  /**
    Bytes contributed by one selector. An empty selector adds nothing; the
    engine's `best` keyword takes the engine's pick (`None` when it has none,
    where the source raises); any other selector is an id looked up in `formats`.
   */
  function SelectedSize(formats: seq<Format>, selector: string, best: string, pick: Option<Format>): (r: Option<nat>)
    ensures r.None? <==> selector != "" && selector == best && pick.None?
    ensures selector == "" ==> r == Some(0)
    ensures selector != "" && selector == best && pick.Some? ==> r == Some(FormatSize(pick.value))
    ensures selector != "" && selector != best ==> r == Some(GetFormatSize(Info(Some(formats)), selector))
  {
    if selector == "" then Some(0)
    else if selector == best then
      if pick.Some? then Some(FormatSize(pick.value)) else None
    else
      match FindFormat(formats, selector)
      case None => Some(0)
      case Some(i) => Some(FormatSize(formats[i]))
  }

  /**
    `check_and_get_size`: the selected video and audio sizes summed and
    inflated by 10%; -1 when the engine raised, the metadata has no formats, a
    best pick was missing, or the sum is zero.
   */
  function CheckAndGetSize(info: Option<Info>, video: string, audio: string, bestVideo: Option<Format>, bestAudio: Option<Format>): (r: int)
    ensures r == -1 || r > 0
    ensures info.None? || info.value.formats.None? ==> r == -1
    ensures info.Some? && info.value.formats.Some? ==>
              var fs := info.value.formats.value;
              var v := SelectedSize(fs, video, "bestvideo", bestVideo);
              var a := SelectedSize(fs, audio, "bestaudio", bestAudio);
              && (v.None? || a.None? ==> r == -1)
              && (v.Some? && a.Some? ==> r == Inflate(v.value + a.value))
  {
    if info.None? || info.value.formats.None? then -1
    else
      var fs := info.value.formats.value;
      match (SelectedSize(fs, video, "bestvideo", bestVideo), SelectedSize(fs, audio, "bestaudio", bestAudio))
      case (Some(v), Some(a)) => Inflate(v + a)
      case _ => -1
  }

  /** With explicit format ids the estimate is the inflated sum of their `get_format_size` values. */
  lemma EstimateOfExplicitIds(info: Info, video: string, audio: string, bestVideo: Option<Format>, bestAudio: Option<Format>)
    requires info.formats.Some?
    requires video != "" && video != "bestvideo"
    requires audio != "" && audio != "bestaudio"
    ensures CheckAndGetSize(Some(info), video, audio, bestVideo, bestAudio) == Inflate(GetFormatSize(info, video) + GetFormatSize(info, audio))
  {
    assert Info(Some(info.formats.value)) == info;
  }

  /** The estimate is -1 exactly when some part failed or nothing was found, and otherwise at least the raw sum. */
  lemma EstimateFailsOnlyWhenEmpty(fs: seq<Format>, video: string, audio: string, bestVideo: Option<Format>, bestAudio: Option<Format>)
    requires SelectedSize(fs, video, "bestvideo", bestVideo).Some?
    requires SelectedSize(fs, audio, "bestaudio", bestAudio).Some?
    ensures var total := SelectedSize(fs, video, "bestvideo", bestVideo).value + SelectedSize(fs, audio, "bestaudio", bestAudio).value;
            var r := CheckAndGetSize(Some(Info(Some(fs))), video, audio, bestVideo, bestAudio);
            && (r == -1 <==> total == 0)
            && (r != -1 ==> r >= total)
  {
  }
}

=== FILE: handlers.dfy ===
/**
  The three worker handlers (`get_info`, `get`, `get_live`) as functions from
  the state they load and the engine's answers to the state they leave, the
  statuses they write to their task, and the download they ask the engine
  for. Each handler reads one clock instant, `now`.
 */
module Handlers {
  import opened Wrappers
  import opened Clock
  import opened Tasks
  import opened Auth
  import opened Formats

  /** What a media job fetches. */
  datatype Kind = Video | Audio {
    /** The type string the dispatcher passes to the handlers. */
    function Name(): string {
      match this
      case Video => "video"
      case Audio => "audio"
    }
  }

  /** The shared state a handler reads and writes: both registries and the artifact folders. */
  datatype World = World(tasks: Registry, keys: Keys, folders: set<string>)

  /** The engine's ranged or whole download as the handler configures it. */
  datatype DownloadRequest = DownloadRequest(format: string, range: Option<Range>, forceKeyframes: bool)

  /** Outcome of the engine's metadata extraction for `get_info`. */
  datatype Attempt = Done | Raised(message: string)

  /** Outcome of a download: the engine raised, or it wrote and the task folder now lists `listing`. */
  datatype Download = Failed(message: string) | Saved(listing: seq<string>)

  /** The engine's answers for one media job: metadata (`None` if it raised), its best picks, and the download. */
  datatype Engine = Engine(info: Option<Info>, bestVideo: Option<Format>, bestAudio: Option<Format>, download: Download)

  /** A handler run: the state it leaves, each status it wrote to its task in order, and the download it requested. */
  datatype Run = Run(world: World, trace: seq<Status>, request: Option<DownloadRequest>)

  const SizeErrorMessage: string := "Error getting size: -1"
  const InvalidKeyMessage: string := "Invalid API key"
  const MemoryMessage: string := "Memory limit exceeded. Maximum 5GB per 10 minutes."
  /** Python's complaint about the three-argument call of the two-parameter quota check. */
  const ArityMessage: string := "check_memory_limit() takes from 1 to 2 positional arguments but 3 were given"
  /** Python's complaint when the task folder is empty after a download. */
  const EmptyFolderMessage: string := "list index out of range"
  /** Stands for the text of the `ValueError` a malformed clip bound raises. */
  const BadClipMessage: string := "malformed clip bound"

  /** The URL path prefix of a task's artifacts. */
  function FilesPrefix(id: string): string {
    "/files/" + id + "/"
  }

  /**
    `next` is `prev` after one terminal write `t` stamped `now`: completion
    carries a file under the task's prefix and keeps the old error field,
    failure carries an error and keeps the old file field, and no other field
    of the record changes.
   */
  predicate Closed(prev: Task, next: Task, id: string, t: Status, now: int) {
    && t.Terminal()
    && next.status == t
    && next.completedTime == Some(now)
    && (t == Completed ==> next.file.Some? && FilesPrefix(id) <= next.file.value && next.error == prev.error)
    && (t == Error ==> next.error.Some? && next.file == prev.file)
    && next.(status := prev.status, file := prev.file, error := prev.error, completedTime := prev.completedTime) == prev
  }

  /** A terminal write after the `processing` write closes the record as it was before both. */
  lemma ClosedAfterStart(prev: Task, next: Task, id: string, t: Status, now: int)
    requires Closed(prev.(status := Processing), next, id, t, now)
    ensures Closed(prev, next, id, t, now)
  {
  }

  /**
    The handler's run on task `id` finished it: one `processing` write, then
    one terminal write stamped `now`, and no other task changes.
   */
  predicate Finished(before: Registry, after: Registry, id: string, trace: seq<Status>, now: int)
    requires id in before
  {
    && OnlyChanged(before, after, id)
    && |trace| == 2 && trace[0] == Processing
    && Closed(before[id], after[id], id, trace[1], now)
  }

  /** A finished run from a fresh waiting task follows the lifecycle and fills exactly one of file and error. */
  lemma FinishedIsOneWay(before: Registry, after: Registry, id: string, trace: seq<Status>, now: int)
    requires id in before && before[id].status == Waiting
    requires Finished(before, after, id, trace, now)
    ensures OneWay(Waiting, trace)
    ensures before[id].file.None? && before[id].error.None? ==> (after[id].file.Some? <==> after[id].error.None?)
  {
  }

  function Fail(w: World, id: string, message: string, now: int): World {
    w.(tasks := HandleTaskError(w.tasks, id, message, now))
  }

  /** The first write of every handler: the task becomes `processing` and gets its folder. */
  function Started(w: World, id: string): World
    requires id in w.tasks
  {
    w.(tasks := MarkProcessing(w.tasks, id), folders := w.folders + {id})
  }

  /**
    `get_info`: mark processing, create the folder, then either record the
    metadata file `info.json` as the result or fail with the engine's message.
    An absent task makes the handler raise before any save.
   */
  function ExtractInfo(w: World, id: string, now: int, extract: Attempt): (r: Run)
    ensures id !in w.tasks ==> r == Run(w, [], None)
    ensures id in w.tasks ==> Finished(w.tasks, r.world.tasks, id, r.trace, now)
    ensures id in w.tasks ==> r.world.folders == w.folders + {id} && r.world.keys == w.keys
    ensures id in w.tasks && extract == Done ==> r.world.tasks[id].file == Some(FilesPrefix(id) + "info.json")
    ensures id in w.tasks && extract.Raised? ==> r.world.tasks[id].error == Some(extract.message)
    ensures r.request.None?
  {
    if id !in w.tasks then Run(w, [], None)
    else
      var w1 := Started(w, id);
      match extract
      case Raised(message) => Run(Fail(w1, id, message, now), [Processing, Error], None)
      case Done => Run(w1.(tasks := MarkCompleted(w1.tasks, id, FilesPrefix(id) + "info.json", now)), [Processing, Completed], None)
  }

  /**
    The end of both download handlers: the engine's failure becomes the task's
    error; otherwise the first entry of the task folder becomes its result, and
    an empty folder fails it.
   */
  function Finish(w: World, id: string, request: DownloadRequest, download: Download, now: int): (r: Run)
    requires id in w.tasks
    ensures r.world.keys == w.keys && r.world.folders == w.folders && r.request == Some(request)
    ensures OnlyChanged(w.tasks, r.world.tasks, id)
    ensures |r.trace| == 1 && Closed(w.tasks[id], r.world.tasks[id], id, r.trace[0], now)
    ensures r.trace[0] == Completed <==> download.Saved? && |download.listing| > 0
    ensures r.trace[0] == Completed ==> r.world.tasks[id] == w.tasks[id].(status := Completed, completedTime := Some(now), file := Some(FilesPrefix(id) + download.listing[0]))
    ensures download.Failed? ==> r.world.tasks[id].error == Some(download.message)
  {
    match download
    case Failed(message) => Run(Fail(w, id, message, now), [Error], Some(request))
    case Saved(listing) =>
      if |listing| == 0 then Run(Fail(w, id, EmptyFolderMessage, now), [Error], Some(request))
      else Run(w.(tasks := MarkCompleted(w.tasks, id, FilesPrefix(id) + listing[0], now)), [Completed], Some(request))
  }

  /** The format option of a linear download: the audio selector, or video plus audio, each falling back to `best`. */
  function MediaFormat(kind: Kind, video: string, audio: string): (f: string)
    ensures kind == Audio ==> f == audio + "/best"
    ensures kind == Video ==> video + "+" <= f && f[|video| + 1..] == audio + "/best"
  {
    if kind == Audio then audio + "/best" else video + "+" + audio + "/best"
  }

  /** The estimate `get` asks for: the video selector only for a video job. */
  function Estimate(engine: Engine, kind: Kind, video: string, audio: string): (r: int)
    ensures r == -1 || r > 0
    ensures engine.info.Some? && engine.info.value.formats.Some? ==>
              var fs := engine.info.value.formats.value;
              var v := SelectedSize(fs, video, "bestvideo", engine.bestVideo);
              var a := SelectedSize(fs, audio, "bestaudio", engine.bestAudio);
              && (kind == Audio && a.Some? ==> r == Inflate(a.value))
              && (kind == Video && v.Some? && a.Some? ==> r == Inflate(v.value + a.value))
  {
    CheckAndGetSize(engine.info, if kind == Video then video else "", audio, engine.bestVideo, engine.bestAudio)
  }

  /**
    `get` after its size estimate: the task's owner must still exist; the
    estimate is re-checked against the owner's memory quota (reserving it);
    the clip bounds are read; then the download runs. `task` is the record
    as loaded when the handler started.
   */
  function Reserve(w: World, id: string, task: Task, kind: Kind, video: string, audio: string, size: int, now: int, download: Download): (r: Run)
    requires id in w.tasks && UniqueTokens(w.keys)
    ensures OnlyChanged(w.tasks, r.world.tasks, id) && r.world.folders == w.folders
    ensures |r.trace| == 1 && Closed(w.tasks[id], r.world.tasks[id], id, r.trace[0], now)
    ensures task.keyName !in w.keys ==> r.world.tasks[id].error == Some(InvalidKeyMessage) && r.world.keys == w.keys
    ensures task.keyName in w.keys ==>
              r.world.keys == CheckMemoryLimit(w.keys, w.keys[task.keyName].token, size, now).keys
    ensures r.request.Some? <==>
              && task.keyName in w.keys
              && CheckMemoryLimit(w.keys, w.keys[task.keyName].token, size, now).allowed
              && !ClipBounds(task.startTime, task.endTime).Malformed?
    ensures r.request.Some? ==>
              var clip := ClipBounds(task.startTime, task.endTime);
              && r.request.value.format == MediaFormat(kind, video, audio)
              && r.request.value.range == (if clip.Clipped? then Some(clip.range) else None)
              && r.request.value.forceKeyframes == (clip.Clipped? && task.forceKeyframes)
    ensures UniqueTokens(r.world.keys)
    ensures UnderQuota(w.keys, now) ==> UnderQuota(r.world.keys, now)
  {
    if task.keyName !in w.keys then Run(Fail(w, id, InvalidKeyMessage, now), [Error], None)
    else
      MemoryCheckKeepsInvariants(w.keys, w.keys[task.keyName].token, size, now);
      // The source passes the task id as a third argument here, which the
      // two-parameter quota check cannot take (see GetAsWritten); the model
      // makes the two-argument call that `check_memory_limit(api_key, new_size)`
      // declares (src/auth.py:11).
      var check := CheckMemoryLimit(w.keys, w.keys[task.keyName].token, size, now);
      if !check.allowed then Run(Fail(w, id, MemoryMessage, now), [Error], None)
      else
        var w2 := w.(keys := check.keys);
        var format := MediaFormat(kind, video, audio);
        match ClipBounds(task.startTime, task.endTime)
        case Malformed => Run(Fail(w2, id, BadClipMessage, now), [Error], None)
        case Unclipped => Finish(w2, id, DownloadRequest(format, None, false), download, now)
        case Clipped(range) => Finish(w2, id, DownloadRequest(format, Some(range), task.forceKeyframes), download, now)
  }

  /**
    `get`, repaired: mark processing and create the folder; a failed or zero
    estimate fails the task and stops; otherwise continue with `Reserve`.
   */
  function Get(w: World, id: string, kind: Kind, video: string, audio: string, now: int, engine: Engine): (r: Run)
    requires UniqueTokens(w.keys)
    ensures id !in w.tasks ==> r == Run(w, [], None)
    ensures id in w.tasks ==> Finished(w.tasks, r.world.tasks, id, r.trace, now) && r.world.folders == w.folders + {id}
    ensures id in w.tasks && Estimate(engine, kind, video, audio) <= 0 ==>
              r.world.tasks[id].error == Some(SizeErrorMessage) && r.world.keys == w.keys && r.request.None?
    ensures id in w.tasks && r.request.Some? ==>
              var clip := ClipBounds(w.tasks[id].startTime, w.tasks[id].endTime);
              && r.request.value.format == MediaFormat(kind, video, audio)
              && r.request.value.range == (if clip.Clipped? then Some(clip.range) else None)
              && r.request.value.forceKeyframes == (clip.Clipped? && w.tasks[id].forceKeyframes)
    ensures id in w.tasks ==>
              var size := Estimate(engine, kind, video, audio);
              var owner := w.tasks[id].keyName;
              size > 0 && owner in w.keys && CheckMemoryLimit(w.keys, w.keys[owner].token, size, now).allowed
              && !ClipBounds(w.tasks[id].startTime, w.tasks[id].endTime).Malformed?
              <==> r.request.Some?
    ensures id in w.tasks && r.request.Some? ==>
              && (r.trace[1] == Completed <==> engine.download.Saved? && |engine.download.listing| > 0)
              && (r.trace[1] == Completed ==> r.world.tasks[id].file == Some(FilesPrefix(id) + engine.download.listing[0]))
    ensures UniqueTokens(r.world.keys)
    ensures UnderQuota(w.keys, now) ==> UnderQuota(r.world.keys, now)
  {
    if id !in w.tasks then Run(w, [], None)
    else
      var size := Estimate(engine, kind, video, audio);
      var w1 := Started(w, id);
      if size <= 0 then Run(Fail(w1, id, SizeErrorMessage, now), [Processing, Error], None)
      else
        var tail := Reserve(w1, id, w.tasks[id], kind, video, audio, size, now, engine.download);
        ClosedAfterStart(w.tasks[id], tail.world.tasks[id], id, tail.trace[0], now);
        tail.(trace := [Processing] + tail.trace)
  }

  /**
    `get` with the quota re-check repaired but, as at the size check of the
    source, no `return` after recording a failed estimate: the handler goes on
    to the quota check and the download.
   */
  function GetUnguarded(w: World, id: string, kind: Kind, video: string, audio: string, now: int, engine: Engine): (r: Run)
    requires UniqueTokens(w.keys)
    ensures id !in w.tasks ==> r == Run(w, [], None)
    ensures id in w.tasks ==> |r.trace| >= 2 && r.trace[0] == Processing && r.world.tasks.Keys == w.tasks.Keys
  {
    if id !in w.tasks then Run(w, [], None)
    else
      var size := Estimate(engine, kind, video, audio);
      var w1 := Started(w, id);
      var w2 := if size <= 0 then Fail(w1, id, SizeErrorMessage, now) else w1;
      var head := if size <= 0 then [Processing, Error] else [Processing];
      var tail := Reserve(w2, id, w.tasks[id], kind, video, audio, size, now, engine.download);
      tail.(trace := head + tail.trace)
  }

  /**
    `get` as written: after the size step and the owner lookup it calls the
    quota check with three arguments, which raises `TypeError`; the outer
    handler records that as the task's error.
   */
  function GetAsWritten(w: World, id: string, kind: Kind, video: string, audio: string, now: int, engine: Engine): (r: Run)
    ensures id !in w.tasks ==> r == Run(w, [], None)
    ensures id in w.tasks ==> r.world.tasks.Keys == w.tasks.Keys && r.world.keys == w.keys
    ensures id in w.tasks ==>
              && r.world.tasks[id].error == Some(if w.tasks[id].keyName in w.keys then ArityMessage else InvalidKeyMessage)
              && r.request.None?
  {
    if id !in w.tasks then Run(w, [], None)
    else
      var size := Estimate(engine, kind, video, audio);
      var w1 := Started(w, id);
      var w2 := if size <= 0 then Fail(w1, id, SizeErrorMessage, now) else w1;
      var head := if size <= 0 then [Processing, Error] else [Processing];
      if w.tasks[id].keyName !in w2.keys then Run(Fail(w2, id, InvalidKeyMessage, now), head + [Error], None)
      else Run(Fail(w2, id, ArityMessage, now), head + [Error], None)
  }

  /** As written, `get` never completes a task: every run that finds its task ends in `error`. */
  lemma GetAsWrittenNeverCompletes(w: World, id: string, kind: Kind, video: string, audio: string, now: int, engine: Engine)
    requires id in w.tasks
    ensures GetAsWritten(w, id, kind, video, audio, now, engine).world.tasks[id].status == Error
    ensures Completed !in GetAsWritten(w, id, kind, video, audio, now, engine).trace
    ensures GetAsWritten(w, id, kind, video, audio, now, engine).request.None?
  {
  }

  /**
    Repaired, `get` completes a task whose owner exists, whose estimate is
    positive and fits the owner's quota, whose clip bounds read, and whose
    download leaves a file; the estimate is reserved against the owner.
   */
  lemma GetCompletes(w: World, id: string, kind: Kind, video: string, audio: string, now: int, engine: Engine)
    requires UniqueTokens(w.keys) && id in w.tasks
    requires w.tasks[id].keyName in w.keys
    requires Estimate(engine, kind, video, audio) > 0
    requires CheckMemoryLimit(w.keys, w.keys[w.tasks[id].keyName].token, Estimate(engine, kind, video, audio), now).allowed
    requires !ClipBounds(w.tasks[id].startTime, w.tasks[id].endTime).Malformed?
    requires engine.download.Saved? && |engine.download.listing| > 0
    ensures var r := Get(w, id, kind, video, audio, now, engine);
            var clip := ClipBounds(w.tasks[id].startTime, w.tasks[id].endTime);
            && r.trace == [Processing, Completed]
            && r.world.tasks[id].file == Some(FilesPrefix(id) + engine.download.listing[0])
            && r.request.Some? && r.request.value.format == MediaFormat(kind, video, audio)
            && r.request.value.range == (if clip.Clipped? then Some(clip.range) else None)
            && r.request.value.forceKeyframes == (clip.Clipped? && w.tasks[id].forceKeyframes)
            && w.tasks[id].keyName in r.world.keys
            && Sample(now, Estimate(engine, kind, video, audio)) in r.world.keys[w.tasks[id].keyName].usage
  {
    var name := w.tasks[id].keyName;
    assert GetKeyName(w.keys, w.keys[name].token) == Some(name);
  }

  /**
    A job admitted with nothing reserved is still failed with the quota message
    when its inflated estimate no longer fits; nothing is reserved and nothing
    is downloaded.
   */
  lemma GetRefusesOverQuota(w: World, id: string, kind: Kind, video: string, audio: string, now: int, engine: Engine)
    requires UniqueTokens(w.keys) && id in w.tasks
    requires w.tasks[id].keyName in w.keys
    requires Estimate(engine, kind, video, audio) > 0
    requires !CheckMemoryLimit(w.keys, w.keys[w.tasks[id].keyName].token, Estimate(engine, kind, video, audio), now).allowed
    ensures var r := Get(w, id, kind, video, audio, now, engine);
            && r.trace == [Processing, Error]
            && r.world.tasks[id].error == Some(MemoryMessage)
            && r.world.keys == w.keys
            && r.request.None?
  {
  }

  /**
    Without the `return`, a failed estimate is recorded and then overwritten:
    the task's owner exists, the (negative) estimate passes the quota check
    and the download completes the task, which ends `completed` carrying both
    a file and the size error, having left a terminal state.
   */
  lemma GetUnguardedLeavesError(w: World, id: string, kind: Kind, video: string, audio: string, now: int, engine: Engine)
    requires UniqueTokens(w.keys) && UnderQuota(w.keys, now) && id in w.tasks
    requires w.tasks[id].status == Waiting
    requires w.tasks[id].keyName in w.keys && w.tasks[id].keyName != ""
    requires engine.info.None?
    requires !NonEmpty(w.tasks[id].startTime) && !NonEmpty(w.tasks[id].endTime)
    requires engine.download.Saved? && |engine.download.listing| > 0
    ensures var r := GetUnguarded(w, id, kind, video, audio, now, engine);
            && r.trace == [Processing, Error, Completed]
            && !OneWay(Waiting, r.trace)
            && r.world.tasks[id].status == Completed
            && r.world.tasks[id].error == Some(SizeErrorMessage)
            && r.world.tasks[id].file.Some?
  {
    var name := w.tasks[id].keyName;
    assert GetKeyName(w.keys, w.keys[name].token) == Some(name);
    assert Estimate(engine, kind, video, audio) == -1;
    var r := GetUnguarded(w, id, kind, video, audio, now, engine);
    assert r.trace[1] == Error && r.trace[2] == Completed;
    assert !Step(r.trace[1], r.trace[2]);
  }

  /** Repaired, `get` on a waiting task follows the lifecycle with a single terminal write. */
  lemma GetIsOneWay(w: World, id: string, kind: Kind, video: string, audio: string, now: int, engine: Engine)
    requires UniqueTokens(w.keys) && id in w.tasks && w.tasks[id].status == Waiting
    ensures OneWay(Waiting, Get(w, id, kind, video, audio, now, engine).trace)
    ensures |Get(w, id, kind, video, audio, now, engine).trace| == 2
  {
    var r := Get(w, id, kind, video, audio, now, engine);
    FinishedIsOneWay(w.tasks, r.world.tasks, id, r.trace, now);
  }

  /** The live format as written: it compares the type with "get_live_video", a string the dispatcher never passes. */
  function LiveFormatAsWritten(typeName: string, video: string, audio: string): (f: string)
    ensures typeName != "get_live_video" ==> f == audio
    ensures typeName == "get_live_video" ==> video + "+" <= f && f[|video| + 1..] == audio
  {
    if typeName == "get_live_video" then video + "+" + audio else audio
  }

  /** As written, a live video job asks only for the audio selector. */
  lemma LiveVideoLosesVideo(kind: Kind, video: string, audio: string)
    ensures LiveFormatAsWritten(kind.Name(), video, audio) == audio
  {
  }

  /** The live format, repaired: video plus audio for a video job, the audio selector alone for an audio job. */
  function LiveFormat(kind: Kind, video: string, audio: string): (f: string)
    ensures kind == Video ==> video + "+" <= f && f[|video| + 1..] == audio
    ensures kind == Audio ==> f == audio
  {
    if kind == Video then video + "+" + audio else audio
  }

  /**
    `get_live`: mark processing, create the folder, and download `duration`
    seconds from `start`, cutting at keyframes.
   */
  function GetLive(w: World, id: string, kind: Kind, start: nat, duration: nat, video: string, audio: string, now: int, download: Download): (r: Run)
    ensures id !in w.tasks ==> r == Run(w, [], None)
    ensures id in w.tasks ==> Finished(w.tasks, r.world.tasks, id, r.trace, now)
    ensures id in w.tasks ==> r.world.folders == w.folders + {id} && r.world.keys == w.keys
    ensures id in w.tasks ==>
              && r.request.Some?
              && r.request.value.range == Some(Range(start, start + duration))
              && r.request.value.forceKeyframes
              && r.request.value.format == LiveFormat(kind, video, audio)
    ensures id in w.tasks ==> (r.trace[1] == Completed <==> download.Saved? && |download.listing| > 0)
    ensures id in w.tasks && download.Saved? && |download.listing| > 0 ==>
              r.world.tasks[id].file == Some(FilesPrefix(id) + download.listing[0])
    ensures id in w.tasks && download.Failed? ==> r.world.tasks[id].error == Some(download.message)
  {
    if id !in w.tasks then Run(w, [], None)
    else
      var tail := Finish(Started(w, id), id, DownloadRequest(LiveFormat(kind, video, audio), Some(LiveRange(start, duration)), true), download, now);
      ClosedAfterStart(w.tasks[id], tail.world.tasks[id], id, tail.trace[0], now);
      tail.(trace := [Processing] + tail.trace)
  }

  /** A finished run leaves every terminal task timed. */
  lemma FinishedKeepsTerminalTimed(before: Registry, after: Registry, id: string, trace: seq<Status>, now: int)
    requires id in before && TerminalTimed(before)
    requires Finished(before, after, id, trace, now)
    ensures TerminalTimed(after)
  {
    forall o | o in after && after[o].status.Terminal()
      ensures after[o].completedTime.Some?
    {
      if o != id {
        assert after[o] == before[o];
      }
    }
  }

  /** Every handler keeps every terminal task timed. */
  lemma HandlersKeepTerminalTimed(w: World, id: string, kind: Kind, video: string, audio: string, start: nat, duration: nat, now: int, engine: Engine, extract: Attempt)
    requires UniqueTokens(w.keys) && TerminalTimed(w.tasks)
    ensures TerminalTimed(ExtractInfo(w, id, now, extract).world.tasks)
    ensures TerminalTimed(Get(w, id, kind, video, audio, now, engine).world.tasks)
    ensures TerminalTimed(GetLive(w, id, kind, start, duration, video, audio, now, engine.download).world.tasks)
  {
    if id in w.tasks {
      var a := ExtractInfo(w, id, now, extract);
      FinishedKeepsTerminalTimed(w.tasks, a.world.tasks, id, a.trace, now);
      var b := Get(w, id, kind, video, audio, now, engine);
      FinishedKeepsTerminalTimed(w.tasks, b.world.tasks, id, b.trace, now);
      var c := GetLive(w, id, kind, start, duration, video, audio, now, engine.download);
      FinishedKeepsTerminalTimed(w.tasks, c.world.tasks, id, c.trace, now);
    }
  }
}

=== FILE: tasks.dfy ===
/**
  The task registry and the task state machine
  `waiting -> processing -> {completed, error}`: the single-record updates
  the handlers perform, crash recovery at startup, `cleanup_task` and the
  orphaned-folder sweep. A registry maps task ids to records; artifact
  folders are a set of folder names under the download directory.
 */
module Tasks {
  import opened Wrappers

  datatype Status = Waiting | Processing | Completed | Error {
    predicate Terminal() {
      Completed? || Error?
    }
  }

  /** The five request kinds, dispatched by an exhaustive match. */
  datatype TaskType = GetVideo | GetAudio | GetInfo | GetLiveVideo | GetLiveAudio

  /**
    A task record. `start`/`duration` are the live-clip fields, `startTime`/`endTime`
    the `HH:MM:SS` bounds of a linear clip; `file`, `error` and `completedTime`
    are absent until a handler writes them. Times are seconds.
   */
  datatype Task = Task(
    keyName: string,
    taskType: TaskType,
    url: string,
    videoFormat: string,
    audioFormat: string,
    proxy: Option<string>,
    startTime: Option<string>,
    endTime: Option<string>,
    forceKeyframes: bool,
    start: nat,
    duration: nat,
    status: Status,
    file: Option<string>,
    error: Option<string>,
    completedTime: Option<int>)

  type Registry = map<string, Task>

  /** The error text written by crash recovery. */
  const InterruptedMessage: string := "Task was interrupted during processing"

  /** The one-way lifecycle: a task is dispatched once and finishes once. */
  predicate Step(from: Status, to: Status) {
    || (from == Waiting && to == Processing)
    || (from == Processing && to.Terminal())
  }

  /** Every status written in `trace`, in order, is a step from the one before (the first from `from`). */
  predicate OneWay(from: Status, trace: seq<Status>) {
    && (|trace| > 0 ==> Step(from, trace[0]))
    && forall i :: 0 < i < |trace| ==> Step(trace[i - 1], trace[i])
  }

  /** A terminal task carries the time it finished; the dispatcher reads it unguarded. */
  predicate TerminalTimed(tasks: Registry) {
    forall id :: id in tasks && tasks[id].status.Terminal() ==> tasks[id].completedTime.Some?
  }

  /** `after` differs from `before` at most in the record of `id`, and has the same ids. */
  predicate OnlyChanged(before: Registry, after: Registry, id: string) {
    && after.Keys == before.Keys
    && forall o :: o in before && o != id ==> after[o] == before[o]
  }

  /** `tasks[id].update(status='processing')` followed by a save. */
  function MarkProcessing(tasks: Registry, id: string): (r: Registry)
    requires id in tasks
    ensures OnlyChanged(tasks, r, id)
    ensures r[id].status == Processing
    ensures r[id] == tasks[id].(status := r[id].status)
  {
    tasks[id := tasks[id].(status := Processing)]
  }

  /** A successful handler's final write: completed, with its finish time and result path. */
  function MarkCompleted(tasks: Registry, id: string, file: string, now: int): (r: Registry)
    requires id in tasks
    ensures OnlyChanged(tasks, r, id)
    ensures r[id].status == Completed && r[id].completedTime == Some(now) && r[id].file == Some(file)
    ensures r[id] == tasks[id].(status := r[id].status, completedTime := r[id].completedTime, file := r[id].file)
  {
    tasks[id := tasks[id].(status := Completed, completedTime := Some(now), file := Some(file))]
  }

  /**
    `handle_task_error`: the task becomes `error` with the message and a finish
    time; nothing else changes. On an absent id the source raises before
    saving, so the registry is left as it was.
   */
  function HandleTaskError(tasks: Registry, id: string, message: string, now: int): (r: Registry)
    ensures id !in tasks ==> r == tasks
    ensures id in tasks ==> OnlyChanged(tasks, r, id)
    ensures id in tasks ==> r[id].status == Error && r[id].error == Some(message) && r[id].completedTime == Some(now)
    ensures id in tasks ==> r[id] == tasks[id].(status := r[id].status, error := r[id].error, completedTime := r[id].completedTime)
  {
    if id in tasks then tasks[id := tasks[id].(status := Error, error := Some(message), completedTime := Some(now))]
    else tasks
  }

  /** Single-record updates keep every terminal task timed. */
  lemma UpdatesKeepTerminalTimed(tasks: Registry, id: string, message: string, file: string, now: int)
    requires TerminalTimed(tasks)
    ensures id in tasks ==> TerminalTimed(MarkProcessing(tasks, id))
    ensures id in tasks ==> TerminalTimed(MarkCompleted(tasks, id, file, now))
    ensures TerminalTimed(HandleTaskError(tasks, id, message, now))
  {
  }

  /** `cleanup_task`: the task's folder and its record are removed; an absent id removes nothing from the registry. */
  function CleanupTask(tasks: Registry, folders: set<string>, id: string): (r: (Registry, set<string>))
    ensures r.0.Keys == tasks.Keys - {id}
    ensures forall o :: o in r.0 ==> r.0[o] == tasks[o]
    ensures id !in tasks ==> r.0 == tasks
    ensures r.1 == folders - {id}
  {
    (tasks - {id}, folders - {id})
  }

  /**
    `cleanup_processing_tasks`: at startup every task left `processing` is
    failed as interrupted, with the current time; other tasks are untouched.
   */
  function CleanupProcessingTasks(tasks: Registry, now: int): (r: Registry)
    ensures r.Keys == tasks.Keys
    ensures forall id :: id in r ==> r[id].status != Processing
    ensures forall id :: id in tasks && tasks[id].status != Processing ==> r[id] == tasks[id]
    ensures forall id :: id in tasks && tasks[id].status == Processing ==>
              && r[id].status == Error
              && r[id].error == Some(InterruptedMessage)
              && r[id].completedTime == Some(now)
              && r[id] == tasks[id].(status := Error, error := r[id].error, completedTime := r[id].completedTime)
  {
    map id | id in tasks ::
      if tasks[id].status == Processing
      then tasks[id].(status := Error, error := Some(InterruptedMessage), completedTime := Some(now))
      else tasks[id]
  }

  /** Recovery is a legal step for every task it touches, leaves every terminal task timed, and a second run changes nothing. */
  lemma RecoveryIsSound(tasks: Registry, now: int, later: int)
    ensures forall id :: id in tasks && tasks[id].status == Processing ==>
              Step(tasks[id].status, CleanupProcessingTasks(tasks, now)[id].status)
    ensures TerminalTimed(tasks) ==> TerminalTimed(CleanupProcessingTasks(tasks, now))
    ensures CleanupProcessingTasks(CleanupProcessingTasks(tasks, now), later) == CleanupProcessingTasks(tasks, now)
  {
  }

  /** Folders that name no task. */
  function Orphans(folders: set<string>, ids: set<string>): set<string> {
    set f | f in folders && f !in ids
  }

  /**
    `cleanup_orphaned_folders`: every folder is visited once and removed when
    its name is not a task id. Returns the folders kept and those removed.
   */
  method CleanupOrphanedFolders(folders: set<string>, tasks: Registry) returns (kept: set<string>, removed: set<string>)
    ensures removed == Orphans(folders, tasks.Keys)
    ensures kept !! removed && kept + removed == folders
    ensures forall f :: f in folders && f in tasks ==> f in kept
    ensures Orphans(kept, tasks.Keys) == {}
  {
    kept, removed := {}, {};
    var todo := folders;
    while todo != {}
      invariant todo <= folders
      invariant kept !! removed && kept + removed + todo == folders
      invariant todo !! (kept + removed)
      invariant forall f :: f in kept ==> f in tasks
      invariant forall f :: f in removed ==> f !in tasks
      decreases todo
    {
      var folder :| folder in todo;
      if folder !in tasks {
        removed := removed + {folder};
      } else {
        kept := kept + {folder};
      }
      todo := todo - {folder};
    }
  }
}

=== FILE: wrappers.dfy ===
/** Optional values, standing in for Python's `None` and for keys missing from a JSON record. */
module Wrappers {

  datatype Option<+T> = None | Some(value: T) {

    /** The wrapped value, or `default` when there is none (Python's `d.get(k, default)`). */
    function GetOr(default: T): T {
      match this
      case Some(v) => v
      case None => default
    }
  }

  /** Python truthiness of an optional string: `None` and `""` are both false. */
  predicate NonEmpty(o: Option<string>) {
    o.Some? && o.value != ""
  }
}
